=== FILE: README.md ===
# A verified model of spgill/backup's restic argument synthesis

spgill/backup is a command-line wrapper around restic. A YAML configuration
names backup *locations* (repositories with a password file or password
command and an environment), *policies* (which locations to use, a cron
schedule and a retention policy) and *profiles* (include and exclude rules,
rule *groups*, tags, a host name and extra arguments). The tool turns this
configuration into the exact ordered token lists and environment maps it
hands to restic.

This project models that synthesis in Dafny and proves what the tool
promises about it. It covers three things:

- the helper layer of `helper.py` (the timestamp fix-up, profile and
  location lookup, location, tag, host, environment and retention
  arguments, and the include/exclude generator);
- the commands of the current command line, `cli.py` (`run`, `init`,
  `apply`, `copy`, `archive`, `daemon`);
- the two commands of the older command line, `__init__.py` (`run` and
  `dump`).

The typed configuration of `model.py` is in `model.dfy`.

Modules:

| file | module | models |
|---|---|---|
| base.dfy | Base | `Option`, `Result`, the error and warning vocabulary. A `printError` (which exits the process) is an `Err`; a `printWarning` is an entry in a warning list. |
| timestamp.dfy | Timestamp | `fixTimestamp`, the regular-expression rewrite, scanning left to right like `re.sub` |
| helper_config.dfy | HelperConfig | the untyped configuration dictionaries that `helper.py` reads; `getLocationConfig`, `getProfileConfig` (with its in-place write of `_locations`, as a class), `fullyQualifiedPath` |
| helper.dfy | Helper | `locationOptionNames`, `getBaseArgsForLocation`, `getTagArgs`, `getHostnameArgs`, `getResticEnv`, `getRetentionPolicyArgs` |
| inclusion.dfy | Inclusion | the generator `getIncludeExcludeArgs`, as methods with loops proved against recursive specification functions |
| model.dfy | Model | the dataclasses of `model.py` with their defaults |
| archive.dfy | Archive | the per-snapshot archive loop shared by `app_archive` and `cli_dump` |
| cli.dfy | Cli | `app_run`, `app_init_location`, `app_apply`, `app_copy`, `app_archive`, `app_daemon` |
| legacy.dfy | Legacy | `cli_run` (the profile as a class whose lists are extended in place) and `cli_dump` |

External commands never run in the model. Their exit codes and output are
inputs: the backup's exit code and standard output, one exit code per
copy or forget call, and a `World` for the archive loop (snapshot lookup,
sizes, free space, dump and move exit codes). The file system is a set of
existing paths plus an `expanduser`/`absolute` function. The process
environment is a parameter.

`cli.py` calls helpers whose bodies are not among the modelled files:
`get_profile`, `get_policy`, `get_policy_locations`,
`get_location_arguments`, `get_execution_env`, `get_tag_arguments`,
`get_hostname_arguments`, `get_inclusion_arguments`,
`get_retention_arguments`, `validate_two_repo_operation` and
`foreground_ok_codes`. These are the fields of `Cli.Helpers` and stay
uninterpreted. Likewise, `getProfileData` and `getBaseResticsArgs` of
`__init__.py` are parameters of `Legacy`: the looked-up profile and its
repository arguments.

Behaviours of the code worth knowing:

- In `archive` and `dump`, every failure ends the whole command, either as
  a `printError` or as an uncaught exception. A failing snapshot therefore
  stops the batch, and the remaining snapshots are never processed
  (`Archive.StopsAtFirstError`).
- `getBaseArgsForLocation` adds a cache pair only when a cache is
  configured. Without one it adds no cache token at all, not even
  `--no-cache` (`Helper.BaseArgsLayout`).
- In `run`, `--location` only turns copying off. The backup still goes to
  the policy's first location (`Cli.OverrideOnlyDisablesCopies`).
- In `dump`, the staging directory is used exactly when the `dump` section
  has a `cache` key, so the top-level `cache` it names as a fallback is
  never read.
- When the staging directory of `archive` or `dump` is the destination
  directory itself, a successful turn moves the archive onto itself and then
  deletes it (`Archive.StagingAtDestinationLosesArchive`).
- A snapshot is reported as not found whenever the text `null` occurs
  anywhere in the output of the `snapshots` query, for instance inside a
  path, a tag or a host name, not only when the output is the JSON `null`.

## Model

| member | source | states |
|---|---|---|
| Timestamp.MatchAt | spgill/backup/helper.py:21 | a match of `:(\d+)\.(\d+)` at the start of the text is a colon, a non-empty digit run, a dot and a non-empty digit run, and the fraction run is maximal |
| Timestamp.FixTimestamp | spgill/backup/helper.py:19-24 | the result is never longer than the input and keeps its first character |
| Timestamp.ResultIsShort | spgill/backup/helper.py:19-24 | every fraction after `:SS.` in the result has at most six digits |
| Timestamp.ShortIsFixedPoint | spgill/backup/helper.py:19-24 | the text comes back unchanged exactly when no matched fraction has more than six digits |
| Timestamp.Idempotent | spgill/backup/helper.py:19-24 | fixing a fixed timestamp changes nothing |
| Timestamp.NoMatchKept | spgill/backup/helper.py:20-23 | where the pattern does not match at a position, it still does not match there once the rest is rewritten (rewriting never creates a match) |
| Timestamp.FixAfterMatch | spgill/backup/helper.py:20-23 | a rewritten match with at most six fraction digits is matched and kept verbatim by a second pass |
| HelperConfig.LocationConfig | spgill/backup/helper.py:57-65 | an absent or empty location entry is `LocationNotFound`; otherwise the entry itself |
| HelperConfig.NormalizeLocation | spgill/backup/helper.py:80-86 | a single location name becomes a one-element list; a list is kept as it is |
| HelperConfig.ProfileConfig | spgill/backup/helper.py:68-88 | fails with `ProfileNotFound` for an absent or empty profile and with `ProfileHasNoLocation` when the `location` key is missing; otherwise the profile with `_locations` set to the normalised location and nothing else changed |
| HelperConfig.ProfileConfigStable | spgill/backup/helper.py:81-88 | looking the profile up again after the write-back gives the same profile |
| HelperConfig.ConfigStore.GetProfileConfig | spgill/backup/helper.py:68-88 | returns the lookup's result; on success the stored profile is replaced by the one with `_locations`; on failure the store is unchanged |
| HelperConfig.QualifiedExistingPath | spgill/backup/helper.py:168-172 | succeeds exactly when the qualified path exists, with that path; otherwise `PathDoesNotExist` naming it |
| Helper.OptionName | spgill/backup/helper.py:92-99 | no location flag is spelled `--cache-dir` |
| Helper.OptionNamesDistinct | spgill/backup/helper.py:92-99 | two spellings are equal exactly when they are the same option in the same column: the "from" and "to" columns share none |
| Helper.BaseArgsForLocation | spgill/backup/helper.py:102-141 | errors in source order (unknown location, missing password file, no `path`); success otherwise; the no-password warning is issued exactly when neither password key is present |
| Helper.BaseArgsLayout | spgill/backup/helper.py:110-141 | the tokens are the `--cache-dir` pair (destination only, with a cache configured), then the password pair (a file wins over a command; none with neither), then the repository pair last |
| Helper.BaseArgsColumn | spgill/backup/helper.py:102-141 | every flag comes from the column `fromRepo` selects, or is the destination-only `--cache-dir` |
| Helper.CopyFlagsDisjoint | spgill/backup/helper.py:92-141 | a destination's arguments and a source's from-form arguments never share a flag |
| Helper.SplitJoin | spgill/backup/helper.py:150 | splitting the comma-joined tags at commas gives back the tags, when no tag contains a comma |
| Helper.TagArgs | spgill/backup/helper.py:149-151 | empty exactly when there are no tags; otherwise exactly `--tag` and the joined tags |
| Helper.TagArgsCarryTags | spgill/backup/helper.py:149-151 | the `--tag` value carries exactly the profile's tags |
| Helper.GetTagArgs | spgill/backup/helper.py:144-151 | fails exactly when the profile lookup fails; otherwise empty exactly when the profile has no tags, else the one `--tag` pair |
| Helper.HostnameArgs | spgill/backup/helper.py:257-260 | empty exactly when no non-empty host name is set; otherwise exactly `--host` and the name |
| Helper.ResticEnv | spgill/backup/helper.py:154-165 | fails exactly when the location lookup fails; `cleanEnv` is returned as it is; otherwise the keys are the process's and the location's, the location's values win, and every other inherited value is unchanged |
| Helper.RetentionPolicyArgs | spgill/backup/helper.py:263-288 | no `policies` section is an error; a given policy name is looked up; otherwise the profile's default (a failed profile lookup, no default and an unknown name are each their own error); the result is the tokenised policy string |
| Helper.DefaultRetentionIsNamed | spgill/backup/helper.py:274-288 | leaving the policy out gives the same result as naming the profile's default retention policy |
| Inclusion.GroupValues | spgill/backup/helper.py:183-185 | the values of the group map, in its order |
| Inclusion.FilterGroupsMembers | spgill/backup/helper.py:186-191 | a group is selected exactly when its name is in the selection |
| Inclusion.UnknownNamesIgnored | spgill/backup/helper.py:186-191 | adding names that are not groups of the profile changes nothing |
| Inclusion.OnlyUnknownSelectsNothing | spgill/backup/helper.py:186-191 | a non-empty selection of unknown names selects no group (it does not fall back to every group) |
| Inclusion.NothingSelected | spgill/backup/helper.py:186-191 | filtering by the empty selection keeps no group, which is why an empty selection is special-cased as every group |
| Inclusion.EmitPairs | spgill/backup/helper.py:219-221 | the loop's tokens equal the specification `FlagPairs` |
| Inclusion.EmitPathPairs | spgill/backup/helper.py:210-212 | the loop's tokens, or its first missing-path error, equal the specification `PathFlagPairs` |
| Inclusion.EmitLoops | spgill/backup/helper.py:209-235 | the per-key loops yield exactly `LoopsFlags`, stopping at the first missing path |
| Inclusion.EmitGroup | spgill/backup/helper.py:209-250 | the loops over one rule set yield exactly `GroupFlags`, stopping at the first error |
| Inclusion.Extend | spgill/backup/helper.py:206-207 | appending entry by entry gives the list followed by the entries |
| Inclusion.IncludeExcludeArgs | spgill/backup/helper.py:175-254 | the generator's output or error equals the specification `InclusionArgs` over `[global, profile, selected groups]` |
| Inclusion.IncludesLast | spgill/backup/helper.py:199-254 | the output is the flags of every rule set, as whole flag units, followed by every bare include of every rule set, in rule-set order |
| Inclusion.GroupSubOrder | spgill/backup/helper.py:209-250 | within one rule set, every flag except `--exclude-caches` is followed by its value, and flags come in the fixed sub-order |
| Inclusion.AllFlagsWellFormed | spgill/backup/helper.py:204-250 | the flags of all rule sets together are whole flag units |
| Inclusion.FirstFailureWins | spgill/backup/helper.py:204-250 | the generator fails exactly when a rule set fails, and with the error of the first one that fails |
| Inclusion.SizeMustBeString | spgill/backup/helper.py:242-250 | a non-zero number as `excludeLargerThan` makes its rule set fail |
| Inclusion.LoopsErrorIsPath | spgill/backup/helper.py:209-237 | the per-key loops fail only on a missing path |
| Cli.Overlay | spgill/backup/cli.py:894 | `{**base, **top}`: the keys of both, `top`'s values win, other values of `base` are kept |
| Cli.ExecuteRunsUntilFailure | spgill/backup/cli.py:187-209 | calls run in plan order; the calls made are a prefix of the plan; the run fails exactly when one exit code is not 0, and then the failing call is the last one made |
| Cli.SearchIsLeftmost | spgill/backup/cli.py:172-178 | the snapshot id is the group of the leftmost match of `snapshot (\w+) saved`, and none is found exactly when the pattern matches nowhere |
| Cli.SavedLineParsed | spgill/backup/cli.py:172-178 | restic's `snapshot <id> saved` line yields the id |
| Cli.BackupArgs | spgill/backup/cli.py:137-149 | location args, "backup", then host, tags, rules and the profile's args, and `--dry-run` last exactly when dry-run is set |
| Cli.BackupCall | spgill/backup/cli.py:119-178 | the first call is the backup to the policy's first location; a failed backup (exit not 0 or 3), a dry run, or unparsable output each end the command before any copy |
| Cli.CopyPlan | spgill/backup/cli.py:187-199 | one copy per secondary location, in order, each from the primary with the snapshot |
| Cli.AppRun | spgill/backup/cli.py:116-211 | the method's calls and error equal the specification `Run` |
| Cli.CopyToSecondaries | spgill/backup/cli.py:181-209 | the copy loop makes the plan's calls until the first failure |
| Cli.CopyRule | spgill/backup/cli.py:126-199 | copies are made exactly when the backup went through, there is more than one location, and neither `--no-copy` nor an override was given; the k-th copy goes from the primary to the k-th secondary with the parsed snapshot |
| Cli.OverrideOnlyDisablesCopies | spgill/backup/cli.py:126-128 | a location override behaves exactly like `--no-copy` |
| Cli.InitLocation | spgill/backup/cli.py:241-268 | an incompatible parent runs nothing; otherwise one call: location args, extra args, "init", then, with a parent, the parent's from-form args and `--copy-chunker-params`; its environment is the location's with the parent's laid over (every key of both, the parent's value wins); the command fails exactly when the exit code is not an accepted foreground code |
| Cli.CopySnapshots | spgill/backup/cli.py:875-897 | the two locations are validated before anything runs; then exactly the copy call, which succeeds exactly when its exit code is accepted |
| Cli.CopyCallLayout | spgill/backup/cli.py:880-894 | destination args, "copy", source from-form args, the snapshots; the destination's environment wins |
| Cli.CopyCallFlagsDisjoint | spgill/backup/cli.py:880-894 | when the location helper yields what `getBaseArgsForLocation` yields for both locations, no flag among the destination's arguments is a flag among the source's (run's copies are the same call, `Cli.RunCopyIsCopyCommand`) |
| Cli.RunCopyIsCopyCommand | spgill/backup/cli.py:194-208 | a copy made by `run` is the call `copy` makes for the same two locations |
| Cli.ForgetArgs | spgill/backup/cli.py:429-443 | location args, "forget", "--group-by", "", then exactly the tag arguments followed by exactly the retention arguments, then `--dry-run` before `--prune` when set; nothing else |
| Cli.ForgetPlan | spgill/backup/cli.py:426-450 | one forget per location, in order, in the location's environment |
| Cli.AppApply | spgill/backup/cli.py:418-450 | the method's calls and error equal the specification `Apply` |
| Cli.ForgetEach | spgill/backup/cli.py:426-450 | the loop makes the plan's calls until the first failure |
| Cli.ApplyTargets | spgill/backup/cli.py:424-450 | when every forget succeeds, there is one call per location: the override's locations when given, else the policy's |
| Cli.StagingValue | spgill/backup/cli.py:553 | `archive.cache` when an archive section exists, else the top-level `cache` |
| Cli.StagingDir | spgill/backup/cli.py:552-559 | the expanded staging value when it is not empty, else the destination directory |
| Cli.EncryptionPassword | spgill/backup/cli.py:561-575 | no password without encryption; `--password` wins; else a non-empty `archive.password_file`; encrypting without either is an error |
| Cli.ShortName | spgill/backup/cli.py:617 | the archive name when set and non-empty, else the profile name |
| Cli.SnapshotsOrLatest | spgill/backup/cli.py:577-579 | never empty; the given snapshots when there are any |
| Cli.AppArchive | spgill/backup/cli.py:525-743 | the method's result equals the specification `ArchiveCommand` |
| Cli.ArchiveSettings | spgill/backup/cli.py:525-579 | missing openssl, pv or zstd is refused first, then a failed profile or policy lookup, then a missing destination; a job results exactly when the tools are present and the profile, policy, location, destination and password all resolve; encryption exactly when asked; separate staging exactly when configured; the repository arguments and the environment of every restic call are those of the chosen location; a failure to resolve runs nothing |
| Cli.AppDaemon | spgill/backup/cli.py:975-1021 | the scheduler has one worker, coalesces missed runs, allows one instance per job and has no misfire grace limit; the jobs are the specification's; the scheduler starts exactly when there is a job; the warning is issued exactly when it does not start |
| Cli.JobsForScheduledProfiles | spgill/backup/cli.py:990-1015 | a profile gets a job with its name exactly when its policy has a schedule; every job runs with all groups, copies on and no override |
| Archive.ArchiveFileName | spgill/backup/cli.py:616-620 | without encryption the name is exactly `short_name + "_" + timestamp + "_" + short_id + ".tar.zst"`; with encryption `.aes` is appended, and only then |
| Archive.ArchiveSnapshots | spgill/backup/cli.py:586-743 | the loop's outcome equals the specification `ArchiveAll` |
| Archive.StopsAtFirstError | spgill/backup/cli.py:586-743 | after a failure nothing further happens |
| Archive.RefusesToOverwrite | spgill/backup/__init__.py:230-238 | an archive whose file already exists in staging or at the destination is refused before anything is dumped |
| Archive.CallsUseJobEnv | spgill/backup/cli.py:598-712 | every restic call of a turn, the dump included, runs with the job's environment |
| Archive.MoveAfterDump | spgill/backup/__init__.py:298-317 | a move always directly follows the dump into the file it moves, and happens only when that dump exited with 0 |
| Archive.CleanupOrder | spgill/backup/__init__.py:300-324 | the staged copy is removed only as the last step, right after a move of it that exited with 0, and only with staging; without staging nothing is moved or removed |
| Archive.DumpFailureAborts | spgill/backup/__init__.py:298-303 | once the snapshot is found, neither file exists and both directories have room, a dump exiting with a non-zero code ends the command with that code; the dump is the last action and nothing is moved or removed |
| Archive.MoveFailureKeepsStaged | spgill/backup/__init__.py:306-324 | with staging, after a dump exiting with 0, a move exiting with a non-zero code ends the command with that code, removes nothing, and leaves the staged copy in place |
| Archive.SuccessLeavesArchive | spgill/backup/cli.py:723-738 | a successful turn leaves the archive at the destination, and no staged copy when staging is separate |
| Archive.StagingAtDestinationLosesArchive | spgill/backup/cli.py:723-738 | when staging is enabled but resolves to the destination directory, a successful turn ends by removing the archive it wrote |
| Archive.SameSnapshotTwice | spgill/backup/cli.py:622-632 | asking for the same snapshot twice stops at the second request: its archive exists |
| Legacy.ProfileDict.MergeGroups | spgill/backup/__init__.py:79-85 | the include and exclude lists are the profile's own followed by every group's, in order; a list the profile has is extended in place, and nothing else changes |
| Legacy.GatheredMembers | spgill/backup/__init__.py:83-85 | a pattern is in a merged list exactly when some group lists it |
| Legacy.CommandPrefix | spgill/backup/__init__.py:90-96 | `ionice -c 3` first and `nice -10` last, each only when asked |
| Legacy.FlagPairsIndex | spgill/backup/__init__.py:102-105 | `flag` before every entry, in order |
| Legacy.RunLayout | spgill/backup/__init__.py:87-108 | prefix, base args, "backup", the tag pairs, the exclude pairs, the includes and the extra args, as consecutive slices |
| Legacy.PairsAt | spgill/backup/__init__.py:102-105 | a run of pairs at an offset of the command line reads flag and entry by entry |
| Legacy.CliRun | spgill/backup/__init__.py:65-116 | the command line over the merged lists; executed exactly when `--go` is given, with the dry-run warning otherwise; the profile's own lists end up merged, and its repository, tags, arguments and groups are unchanged |
| Legacy.DumpJob | spgill/backup/__init__.py:164-199 | unknown profile, missing `dump` section, missing destination and missing password file are errors, in that order, and a job results exactly when none of them occurs; staging exactly when `dump.cache` exists; always encrypted with the configured password file; the archive name starts with the repository's base name; the calls inherit the tool's own environment |
| Legacy.CliDump | spgill/backup/__init__.py:164-329 | the method's result equals the specification `DumpCommand` |
| Legacy.DumpAlwaysEncrypts | spgill/backup/__init__.py:224-228 | every archive name of `dump` ends in `.aes` |

## Left out

- Process launch: `runCommandPolitely`, `maximizeNiceness`, `subprocess`, the `sh` pipelines and KeyboardInterrupt handling. Commands are recorded as calls, and their exit codes and output are inputs.
- The openssl, pv and zstd pipelines of the archive loop: one dump action per snapshot, with its exit code as input; their flags are foreign tool parameters.
- JSON parsing of restic's output, `datetime` parsing and `strftime`: the snapshot record and the `%Y%m%d%H%M%S` stamp are inputs (`Archive.World`).
- `shutil.disk_usage`, `stat` and `unlink`: free space is an input, a function of the directory and of the set of paths existing at the moment it is measured (so a turn sees the space earlier turns used), and the file system is a set of paths.
- `expanduser`, `absolute` and `pathlib`'s base name: uninterpreted functions.
- `shlex.split`: an uninterpreted tokenizer. Printing with `shlex.join` is left out.
- The APScheduler runtime (cron parsing, the thread pool, running jobs): the model records the settings the scheduler is built with, the jobs and whether it is started.
- `config.py` (YAML loading), `command.py` (bindings to binaries) and `schema.py` (type hints) are not part of this model.
- The helpers of `cli.py` and `__init__.py` whose bodies are not among the modelled files are uninterpreted: `get_profile`, `get_policy`, `get_policy_locations`, `get_location_arguments`, `get_execution_env`, `get_tag_arguments`, `get_hostname_arguments`, `get_inclusion_arguments`, `get_retention_arguments`, `validate_two_repo_operation`, `foreground_ok_codes`, `getProfileData` and `getBaseResticsArgs`.
- The fields of `Cli.Helpers` other than `getProfile` and `getPolicy`, and `Legacy`'s `repoArgs`, are modelled as never failing. In the source, `get_location_arguments`, `get_execution_env`, `get_inclusion_arguments` and `getBaseResticsArgs` can fail, for example on an unknown location, a missing password file or a missing include path. Such a failure ends the command before its first call, and the model cannot show it.
- Uncaught exceptions are modelled as `Error` values that end the command, like `printError`. Examples: `assert profile.policy` (`ProfileHasNoPolicy`), `locations[0]` on an empty list (`PolicyHasNoLocations`) and `Path(None)` for a missing `passwordFile` in `dump` (`MissingKey("passwordFile")`). A `snapshots` or `stats` query that fails without being checked, so that `json.loads` raises, is not modelled: the snapshot record and its size are inputs.
- The remaining commands of `cli.py` and `__init__.py` (`prune`, `decrypt`, `restic`, `list`, `cli`) are not part of the argument-synthesis core.
- Colour, console output and `humanize`.
- `\w` is taken as ASCII letters, digits and underscore, and `\d` (in `fixTimestamp`) as the ASCII digits `0`-`9`. Python's Unicode word characters and Unicode decimal digits are not modelled.
- Cli.CopyCallFlagsDisjoint: requires that `Cli.Helpers.locationArgs` agrees with `Helper.BaseArgsForLocation` for the two locations. `get_location_arguments` of `cli.py` reads the `model.py` dataclasses, while `getBaseArgsForLocation` of `helper.py` reads the older dictionary schema, whose keys and shapes differ, and no translation between the two schemas is modelled.
- A dictionary's truthiness is modelled as "has at least one of the modelled keys". A dictionary holding only other keys counts as empty.
- Cli.CopySnapshots: requires at least one snapshot, which the command line enforces (`min=1`) before the function runs.
- Legacy.RunLayout: states the layout as slices. The entry-by-entry reading of each run of pairs is `Legacy.PairsAt` together with `Legacy.FlagPairsIndex`.
- The `model.py` dataclasses are datatypes with constants for their defaults (`Model.DefaultSourceDef`, `Model.DefaultRetention`, `Model.DefaultProfile`). They have no operations, so no member states anything about them.

=== FILE: archive.dfy ===
/** Dumping snapshots to archive files, the loop that both `app_archive`
    (spgill/backup/cli.py) and the older `cli_dump` (spgill/backup/__init__.py)
    run once their settings are resolved. For every requested snapshot: look it
    up, name the archive after it, refuse to overwrite, check free space, dump
    into the staging directory and, when staging is separate, move the file to
    the destination and delete the staged copy. The first failure ends the
    whole command. */
module Archive {
  import opened Base
  import Timestamp

  /** What the loop needs from the command that runs it. */
  datatype Job = Job(
    repoArgs: seq<string>,    // location arguments of the repository
    quiet: bool,              // whether the queries carry `--quiet`
    shortName: string,        // first part of every archive name
    password: Option<string>, // password file; `Some` exactly when encrypting
    cacheEnabled: bool,       // whether staging is separate from the destination
    cacheDir: string,         // staging directory
    destDir: string,          // destination directory
    env: Option<map<string, string>>) // environment of every restic call; `None` inherits the tool's own

  /** A snapshot as `restic snapshots NAME --json` reports it. */
  datatype SnapshotInfo = SnapshotInfo(time: string, shortId: string, id: string)

  /** What the loop observes of the outside world. */
  datatype World = World(
    snapshot: string -> Option<SnapshotInfo>, // `None` when "null" occurs anywhere in the query's output
    stamp: string -> string,                  // `%Y%m%d%H%M%S` of a parsed timestamp
    size: string -> int,                      // `total_size` of a snapshot id
    free: (set<string>, string) -> int,       // free bytes in a directory, given the files that exist then
    dumpExit: string -> int,                  // exit code of the dump pipeline, per snapshot id
    moveExit: string -> int)                  // exit code of the move, per staged file

  /** The effects of the loop, in order. */
  datatype Action =
    | Restic(args: seq<string>, env: Option<map<string, string>>)
    | DumpTo(args: seq<string>, env: Option<map<string, string>>, file: string, password: Option<string>)
    | Move(from: string, to: string)
    | Remove(path: string)

  /** The outcome of archiving: what was done, the paths that now exist, and
      the error that stopped the command, if any. */
  datatype Outcome = Outcome(actions: seq<Action>, existing: set<string>, error: Option<Error>)

  function Join(dir: string, file: string): string {
    dir + "/" + file
  }

  predicate EndsWith(s: string, suffix: string) {
    |suffix| <= |s| && s[|s| - |suffix|..] == suffix
  }

  /** `<short name>_<timestamp>_<short id>.tar.zst`, plus `.aes` when encrypting. */
  function ArchiveFileName(shortName: string, stamp: string, shortId: string, encrypt: bool): (name: string)
    ensures |name| > |shortName| + 1 && name[..|shortName| + 1] == shortName + "_"
    ensures EndsWith(name, ".aes") <==> encrypt
    ensures encrypt ==> name[..|name| - 4] == shortName + "_" + stamp + "_" + shortId + ".tar.zst"
    ensures !encrypt ==> name == shortName + "_" + stamp + "_" + shortId + ".tar.zst"
  {
    var plain := shortName + "_" + stamp + "_" + shortId + ".tar.zst";
    assert plain[..|shortName| + 1] == shortName + "_";
    var name := if encrypt then plain + ".aes" else plain;
    assert name[..|shortName| + 1] == plain[..|shortName| + 1];
    assert plain[|plain| - 4..] == ".zst";
    name
  }

  function QuietFlag(job: Job): seq<string> {
    if job.quiet then ["--quiet"] else []
  }

  /** One turn of the loop, for the snapshot called `name`, with the paths
      that exist when it starts. */
  function ArchiveStep(job: Job, w: World, existing: set<string>, name: string): Outcome {
    var query := Restic(job.repoArgs + QuietFlag(job) + ["snapshots", name, "--json"], job.env);
    match w.snapshot(name)
    case None => Outcome([query], existing, Some(SnapshotNotFound(name)))
    case Some(info) =>
      var stamp := w.stamp(Timestamp.FixTimestamp(info.time));
      var fileName := ArchiveFileName(job.shortName, stamp, info.shortId, job.password.Some?);
      var cacheFile := Join(job.cacheDir, fileName);
      var destFile := Join(job.destDir, fileName);
      if cacheFile in existing then Outcome([query], existing, Some(ArchiveExists(cacheFile)))
      else if destFile in existing then Outcome([query], existing, Some(ArchiveExists(destFile)))
      else
        var stats := Restic(job.repoArgs + QuietFlag(job) + ["stats", info.id, "--json"], job.env);
        var size := w.size(info.id);
        if w.free(existing, job.cacheDir) < size then
          Outcome([query, stats], existing, Some(InsufficientSpace(job.cacheDir)))
        else if w.free(existing, job.destDir) < size then
          Outcome([query, stats], existing, Some(InsufficientSpace(job.destDir)))
        else
          var dump := DumpTo(job.repoArgs + ["dump", info.id, "/"], job.env, cacheFile, job.password);
          var dumped := existing + {cacheFile};
          if w.dumpExit(info.id) != 0 then
            Outcome([query, stats, dump], dumped, Some(CommandFailed(w.dumpExit(info.id))))
          else if !job.cacheEnabled then
            Outcome([query, stats, dump], dumped, None)
          else if w.moveExit(cacheFile) != 0 then
            Outcome([query, stats, dump, Move(cacheFile, destFile)], dumped + {destFile},
                    Some(CommandFailed(w.moveExit(cacheFile))))
          else
            Outcome([query, stats, dump, Move(cacheFile, destFile), Remove(cacheFile)],
                    dumped + {destFile} - {cacheFile}, None)
  }

  /** The loop over `names`, stopping at the first failure. */
  function ArchiveAll(job: Job, w: World, existing: set<string>, names: seq<string>): Outcome
    decreases |names|
  {
    if names == [] then Outcome([], existing, None)
    else
      var before := ArchiveAll(job, w, existing, names[..|names| - 1]);
      if before.error.Some? then before
      else
        var step := ArchiveStep(job, w, before.existing, names[|names| - 1]);
        Outcome(before.actions + step.actions, step.existing, step.error)
  }

  /** The loop itself. */
  method ArchiveSnapshots(job: Job, w: World, existing: set<string>, names: seq<string>)
    returns (out: Outcome)
    ensures out == ArchiveAll(job, w, existing, names)
  {
    out := Outcome([], existing, None);
    var i := 0;
    while i < |names|
      invariant 0 <= i <= |names|
      invariant out == ArchiveAll(job, w, existing, names[..i])
      invariant out.error.None?
    {
      assert names[..i + 1][..i] == names[..i];
      var step := ArchiveStep(job, w, out.existing, names[i]);
      out := Outcome(out.actions + step.actions, step.existing, step.error);
      if step.error.Some? {
        StopsAtFirstError(job, w, existing, names, i + 1);
        assert names[..|names|] == names;
        return;
      }
      i := i + 1;
    }
    assert names[..i] == names;
  }

  /** After a failure nothing further happens. */
  lemma {:induction false} StopsAtFirstError(job: Job, w: World, existing: set<string>, names: seq<string>, k: nat)
    requires k <= |names|
    requires ArchiveAll(job, w, existing, names[..k]).error.Some?
    ensures ArchiveAll(job, w, existing, names) == ArchiveAll(job, w, existing, names[..k])
    decreases |names| - k
  {
    if k < |names| {
      assert names[..k + 1][..k] == names[..k];
      StopsAtFirstError(job, w, existing, names, k + 1);
    } else {
      assert names[..k] == names;
    }
  }

  // ---- properties ----

  /** The staged copy is deleted only as the last effect of a turn, right after
      it was moved to the destination, and only when staging is enabled and
      the move succeeded; without staging nothing is moved. */
  lemma CleanupOrder(job: Job, w: World, existing: set<string>, name: string)
    ensures var out := ArchiveStep(job, w, existing, name);
      forall i :: 0 <= i < |out.actions| && out.actions[i].Remove? ==>
        i == |out.actions| - 1 && i >= 1 && out.actions[i - 1].Move?
        && out.actions[i - 1].from == out.actions[i].path
        && job.cacheEnabled && out.error.None? && w.moveExit(out.actions[i].path) == 0
    ensures var out := ArchiveStep(job, w, existing, name);
      !job.cacheEnabled ==> forall a :: a in out.actions ==> !a.Move? && !a.Remove?
  {
    var out := ArchiveStep(job, w, existing, name);
    match w.snapshot(name) {
      case None =>
      case Some(info) =>
        var fileName := ArchiveFileName(job.shortName, w.stamp(Timestamp.FixTimestamp(info.time)),
                                        info.shortId, job.password.Some?);
        var cacheFile := Join(job.cacheDir, fileName);
        var destFile := Join(job.destDir, fileName);
        var size := w.size(info.id);
        if cacheFile in existing || destFile in existing || w.free(existing, job.cacheDir) < size
           || w.free(existing, job.destDir) < size || w.dumpExit(info.id) != 0 || !job.cacheEnabled {
          assert |out.actions| <= 3 && forall a :: a in out.actions ==> !a.Move? && !a.Remove?;
        } else if w.moveExit(cacheFile) != 0 {
          assert |out.actions| == 4 && !out.actions[3].Remove?;
          assert forall a :: a in out.actions ==> !a.Remove?;
        } else {
          assert out.actions[3] == Move(cacheFile, destFile) && out.actions[4] == Remove(cacheFile);
          assert forall i :: 0 <= i < 4 ==> !out.actions[i].Remove?;
        }
    }
  }

  /** A move always follows a successful dump into the file it moves. */
  lemma MoveAfterDump(job: Job, w: World, existing: set<string>, name: string)
    ensures var out := ArchiveStep(job, w, existing, name);
      forall i :: 0 <= i < |out.actions| && out.actions[i].Move? ==>
        i >= 1 && out.actions[i - 1].DumpTo? && out.actions[i - 1].file == out.actions[i].from
        && w.snapshot(name).Some? && w.dumpExit(w.snapshot(name).value.id) == 0
  {
    var out := ArchiveStep(job, w, existing, name);
    match w.snapshot(name) {
      case None =>
      case Some(info) =>
        var fileName := ArchiveFileName(job.shortName, w.stamp(Timestamp.FixTimestamp(info.time)),
                                        info.shortId, job.password.Some?);
        var cacheFile := Join(job.cacheDir, fileName);
        var destFile := Join(job.destDir, fileName);
        var size := w.size(info.id);
        if cacheFile in existing || destFile in existing || w.free(existing, job.cacheDir) < size
           || w.free(existing, job.destDir) < size || w.dumpExit(info.id) != 0 || !job.cacheEnabled {
          assert |out.actions| <= 3 && forall i :: 0 <= i < |out.actions| ==> !out.actions[i].Move?;
        } else {
          assert out.actions[2].DumpTo? && out.actions[2].file == cacheFile;
          assert out.actions[3] == Move(cacheFile, destFile);
          assert forall i :: 0 <= i < |out.actions| && i != 3 ==> !out.actions[i].Move?;
        }
    }
  }

  /** The archive file a turn writes for a snapshot. */
  function FileNameFor(job: Job, w: World, info: SnapshotInfo): string {
    ArchiveFileName(job.shortName, w.stamp(Timestamp.FixTimestamp(info.time)), info.shortId, job.password.Some?)
  }

  /** Every check before the dump passes: neither the staged nor the final
      file exists, and both directories have room for the snapshot. */
  predicate ReadyToDump(job: Job, w: World, existing: set<string>, info: SnapshotInfo) {
    var f := FileNameFor(job, w, info);
    Join(job.cacheDir, f) !in existing && Join(job.destDir, f) !in existing
    && w.free(existing, job.cacheDir) >= w.size(info.id) && w.free(existing, job.destDir) >= w.size(info.id)
  }

  /** A dump that exits with a non-zero code ends the command with that code:
      the dump is the turn's last effect, and nothing is moved or removed. */
  lemma DumpFailureAborts(job: Job, w: World, existing: set<string>, name: string)
    requires w.snapshot(name).Some? && ReadyToDump(job, w, existing, w.snapshot(name).value)
    requires w.dumpExit(w.snapshot(name).value.id) != 0
    ensures var out := ArchiveStep(job, w, existing, name);
      out.error == Some(CommandFailed(w.dumpExit(w.snapshot(name).value.id)))
      && |out.actions| == 3 && out.actions[2].DumpTo?
      && forall a :: a in out.actions ==> !a.Move? && !a.Remove?
  {
  }

  /** A move that exits with a non-zero code ends the command with that code,
      and the staged copy is kept: nothing is removed. */
  lemma MoveFailureKeepsStaged(job: Job, w: World, existing: set<string>, name: string)
    requires w.snapshot(name).Some? && ReadyToDump(job, w, existing, w.snapshot(name).value)
    requires w.dumpExit(w.snapshot(name).value.id) == 0 && job.cacheEnabled
    requires w.moveExit(Join(job.cacheDir, FileNameFor(job, w, w.snapshot(name).value))) != 0
    ensures var staged := Join(job.cacheDir, FileNameFor(job, w, w.snapshot(name).value));
      var out := ArchiveStep(job, w, existing, name);
      out.error == Some(CommandFailed(w.moveExit(staged)))
      && staged in out.existing
      && forall a :: a in out.actions ==> !a.Remove?
  {
  }

  /** Every restic call of a turn, the dump included, runs with the job's
      environment. */
  lemma CallsUseJobEnv(job: Job, w: World, existing: set<string>, name: string)
    ensures var out := ArchiveStep(job, w, existing, name);
      forall a :: a in out.actions && (a.Restic? || a.DumpTo?) ==> a.env == job.env
  {
    var out := ArchiveStep(job, w, existing, name);
    var query := Restic(job.repoArgs + QuietFlag(job) + ["snapshots", name, "--json"], job.env);
    match w.snapshot(name) {
      case None =>
        assert out.actions == [query];
      case Some(info) =>
        assert out.actions[0] == query;
        assert forall i :: 1 <= i < |out.actions| && (out.actions[i].Restic? || out.actions[i].DumpTo?) ==>
                             out.actions[i].env == job.env;
    }
  }

  /** An archive whose file already exists in the staging or destination
      directory is refused before anything is dumped. */
  lemma RefusesToOverwrite(job: Job, w: World, existing: set<string>, name: string)
    requires w.snapshot(name).Some?
    requires var info := w.snapshot(name).value;
      var f := ArchiveFileName(job.shortName, w.stamp(Timestamp.FixTimestamp(info.time)), info.shortId,
                               job.password.Some?);
      Join(job.cacheDir, f) in existing || Join(job.destDir, f) in existing
    ensures var out := ArchiveStep(job, w, existing, name);
      out.error.Some? && out.error.value.ArchiveExists? && |out.actions| == 1
      && out.existing == existing
  {
  }

  /** A turn that succeeds leaves the archive at the destination, and the
      staged copy gone when staging is separate. */
  lemma SuccessLeavesArchive(job: Job, w: World, existing: set<string>, name: string)
    requires job.cacheEnabled ==> job.cacheDir != job.destDir
    requires !job.cacheEnabled ==> job.cacheDir == job.destDir
    requires ArchiveStep(job, w, existing, name).error.None?
    ensures var info := w.snapshot(name).value;
      var f := ArchiveFileName(job.shortName, w.stamp(Timestamp.FixTimestamp(info.time)), info.shortId,
                               job.password.Some?);
      var out := ArchiveStep(job, w, existing, name);
      Join(job.destDir, f) in out.existing
      && (job.cacheEnabled ==> Join(job.cacheDir, f) !in out.existing)
  {
    var info := w.snapshot(name).value;
    var f := ArchiveFileName(job.shortName, w.stamp(Timestamp.FixTimestamp(info.time)), info.shortId,
                             job.password.Some?);
    if job.cacheEnabled {
      JoinInjective(job.cacheDir, job.destDir, f);
    }
  }

  /** When the staging directory is the destination directory itself, a
      turn that succeeds ends by deleting the archive it has just written:
      the move targets the file it reads and the cleanup then removes it. */
  lemma StagingAtDestinationLosesArchive(job: Job, w: World, existing: set<string>, name: string)
    requires job.cacheEnabled && job.cacheDir == job.destDir
    requires ArchiveStep(job, w, existing, name).error.None?
    ensures var info := w.snapshot(name).value;
      var f := ArchiveFileName(job.shortName, w.stamp(Timestamp.FixTimestamp(info.time)), info.shortId,
                               job.password.Some?);
      var out := ArchiveStep(job, w, existing, name);
      Join(job.destDir, f) !in out.existing
      && out.actions[|out.actions| - 1] == Remove(Join(job.destDir, f))
  {
  }

  lemma JoinInjective(a: string, b: string, f: string)
    ensures Join(a, f) == Join(b, f) ==> a == b
  {
    assert Join(a, f)[..|a|] == a;
    assert Join(b, f)[..|b|] == b;
  }

  /** Asking for the same snapshot twice stops at the second request: its
      archive already exists. */
  lemma SameSnapshotTwice(job: Job, w: World, existing: set<string>, name: string)
    requires job.cacheEnabled ==> job.cacheDir != job.destDir
    requires !job.cacheEnabled ==> job.cacheDir == job.destDir
    requires ArchiveStep(job, w, existing, name).error.None?
    ensures var out := ArchiveAll(job, w, existing, [name, name]);
      out.error.Some? && out.error.value.ArchiveExists?
  {
    var first := ArchiveStep(job, w, existing, name);
    SuccessLeavesArchive(job, w, existing, name);
    assert [name, name][..1] == [name];
    assert [name][..0] == [];
    assert ArchiveAll(job, w, existing, [name]) == Outcome([] + first.actions, first.existing, None);
  }
}

=== FILE: base.dfy ===
/** Failure-compatible wrappers and the error and warning vocabulary shared by
    every module of the model. A `printError` of the tool (which ends the
    process) becomes an `Err`, a `printWarning` an entry in a warning list. */
module Base {

  datatype Option<+T> = None | Some(value: T) {
    function GetOr(default: T): T {
      match this
      case Some(v) => v
      case None => default
    }
  }

  /** Why a command stopped. */
  datatype Error =
    | LocationNotFound(location: string)
    | ProfileNotFound(profile: string)
    | ProfileHasNoLocation(profile: string)
    | ProfileHasNoPolicy(profile: string)
    | PolicyNotFound(policy: string)
    | PolicyHasNoLocations
    | PathDoesNotExist(path: string)
    | MissingKey(key: string)
    | SizeNotString
    | NoPoliciesSection
    | NoDefaultRetention(profile: string)
    | SnapshotNotParsed
    | SnapshotNotFound(snapshot: string)
    | CommandFailed(code: int)
    | IncompatibleLocations(first: string, second: string)
    | NoEncryptionPassword
    | DestinationMissing(dir: string)
    | ArchiveExists(path: string)
    | InsufficientSpace(dir: string)
    | NoDumpSection
    | ToolsMissing

  /** Non-fatal diagnostics. */
  datatype Warning =
    | NoPasswordConfigured(location: string)
    | DryRunMode
    | NoJobsScheduled

  datatype Result<+T> = Ok(value: T) | Err(error: Error) {
    predicate IsFailure() {
      Err?
    }

    function PropagateFailure<U>(): Result<U>
      requires Err?
    {
      Err(error)
    }

    function Extract(): T
      requires Ok?
    {
      value
    }
  }

  /** A string counts as true in a condition when it is not empty. */
  predicate Truthy(s: Option<string>) {
    s.Some? && s.value != ""
  }
}

=== FILE: cli.dfy ===
/** The commands of the current command line, spgill/backup/cli.py: `run`,
    `init`, `apply`, `copy`, `archive` and `daemon`, as the restic calls they
    make. The helpers they call that are not part of this model are the fields
    of `Helpers`; exit codes and command output are inputs. */
module Cli {
  import opened Base
  import opened Model
  import Archive
  import HelperConfig
  import Helper

  type Env = map<string, string>

  /** The helper functions of the current tool whose bodies are not part of
      this model, and its set of exit codes accepted for foreground commands. */
  datatype Helpers = Helpers(
    getProfile: (RootBackupConfiguration, string) -> Result<BackupProfile>,
    getPolicy: (RootBackupConfiguration, string) -> Result<BackupPolicy>,
    policyLocations: BackupPolicy -> seq<string>,
    locationArgs: (RootBackupConfiguration, string, bool) -> seq<string>,
    executionEnv: (RootBackupConfiguration, string) -> Env,
    tagArgs: (RootBackupConfiguration, string) -> seq<string>,
    hostnameArgs: BackupProfile -> seq<string>,
    inclusionArgs: (RootBackupConfiguration, string, seq<string>) -> seq<string>,
    retentionArgs: (RootBackupConfiguration, BackupPolicy) -> seq<string>,
    compatible: (RootBackupConfiguration, string, string) -> bool,
    foregroundOk: set<int>)

  /** One restic invocation: its arguments and the environment it gets. */
  datatype Call = Call(args: seq<string>, env: Env)

  /** The calls a command made, in order, and the error that ended it. */
  datatype Outcome = Outcome(calls: seq<Call>, error: Option<Error>)

  /** `{**base, **top}` and `base.update(top)`: every key of both, and the
      value of `top` where both have one. */
  function Overlay(base: Env, top: Env): (e: Env)
    ensures e.Keys == base.Keys + top.Keys
    ensures forall k :: k in top ==> e[k] == top[k]
    ensures forall k :: k in base && k !in top ==> e[k] == base[k]
  {
    base + top
  }

  /** The profile and its policy; `assert profile.policy` fails on a missing
      or empty policy name. */
  function ProfilePolicy(h: Helpers, config: RootBackupConfiguration, name: string)
    : Result<(BackupProfile, BackupPolicy)>
  {
    var profile :- h.getProfile(config, name);
    if !Truthy(profile.policy) then Err(ProfileHasNoPolicy(name))
    else
      var policy :- h.getPolicy(config, profile.policy.value);
      Ok((profile, policy))
  }

  /** Runs the calls of `plan[..n]` in order, stopping after the first one
      whose exit code is not 0 (the default accepted codes). */
  function Execute(plan: seq<Call>, exits: nat -> int, n: nat): Outcome
    requires n <= |plan|
  {
    if n == 0 then Outcome([], None)
    else
      var before := Execute(plan, exits, n - 1);
      if before.error.Some? then before
      else Outcome(before.calls + [plan[n - 1]],
                   if exits(n - 1) != 0 then Some(CommandFailed(exits(n - 1))) else None)
  }

  lemma ExecuteStep(plan: seq<Call>, exits: nat -> int, i: nat)
    requires i < |plan| && Execute(plan, exits, i).error.None?
    ensures Execute(plan, exits, i + 1)
         == Outcome(Execute(plan, exits, i).calls + [plan[i]],
                    if exits(i) != 0 then Some(CommandFailed(exits(i))) else None)
  {
  }

  lemma {:induction false} ExecuteErrorPersists(plan: seq<Call>, exits: nat -> int, k: nat, n: nat)
    requires k <= n <= |plan|
    requires Execute(plan, exits, k).error.Some?
    ensures Execute(plan, exits, n) == Execute(plan, exits, k)
    decreases n - k
  {
    if k < n {
      ExecuteErrorPersists(plan, exits, k, n - 1);
    }
  }

  /** The calls made are a prefix of the plan; the run fails exactly when one
      of the calls fails, and then the failing call is the last one made. */
  lemma {:induction false} ExecuteRunsUntilFailure(plan: seq<Call>, exits: nat -> int, n: nat)
    requires n <= |plan|
    ensures var o := Execute(plan, exits, n);
      |o.calls| <= n && o.calls == plan[..|o.calls|]
    ensures var o := Execute(plan, exits, n);
      o.error.None? <==> forall k :: 0 <= k < n ==> exits(k) == 0
    ensures var o := Execute(plan, exits, n);
      o.error.None? ==> o.calls == plan[..n]
    ensures var o := Execute(plan, exits, n);
      o.error.Some? ==> (|o.calls| >= 1 && o.error == Some(CommandFailed(exits(|o.calls| - 1)))
        && forall k :: 0 <= k < |o.calls| - 1 ==> exits(k) == 0)
  {
    if n > 0 {
      ExecuteRunsUntilFailure(plan, exits, n - 1);
      var before := Execute(plan, exits, n - 1);
      if before.error.None? {
        assert plan[..n] == plan[..n - 1] + [plan[n - 1]];
      }
    }
  }

  // ---- `run`: the snapshot id in restic's output ----

  predicate IsWordChar(c: char) {
    ('a' <= c <= 'z') || ('A' <= c <= 'Z') || ('0' <= c <= '9') || c == '_'
  }

  predicate AllWord(s: string) {
    forall i :: 0 <= i < |s| ==> IsWordChar(s[i])
  }

  /** The longest prefix of word characters (what a greedy `\w+` takes). */
  function WordRun(s: string): (w: string)
    ensures w <= s && AllWord(w)
    ensures |w| < |s| ==> !IsWordChar(s[|w|])
  {
    if s != [] && IsWordChar(s[0]) then [s[0]] + WordRun(s[1..]) else []
  }

  lemma {:induction false} WordRunOfWord(w: string, s: string)
    requires AllWord(w)
    requires s == [] || !IsWordChar(s[0])
    ensures WordRun(w + s) == w
  {
    if w != [] {
      assert (w + s)[0] == w[0];
      assert (w + s)[1..] == w[1..] + s;
      WordRunOfWord(w[1..], s);
    } else {
      assert w + s == s;
    }
  }

  /** The group of `snapshot (\w+) saved` when the pattern matches at the
      start of `t`. A word run can only be followed by the space of " saved"
      where it ends, so the greedy run is the only candidate. */
  function SnapshotAt(t: string): (r: Option<string>)
    ensures r.Some? ==> r.value != [] && AllWord(r.value)
  {
    if |t| >= 9 && t[..9] == "snapshot " then
      var w := WordRun(t[9..]);
      var rest := t[9 + |w|..];
      if w != [] && |rest| >= 6 && rest[..6] == " saved" then Some(w) else None
    else None
  }

  /** `re.search`: the leftmost match. */
  function SearchSnapshot(t: string): (r: Option<string>)
    ensures r.Some? ==> r.value != [] && AllWord(r.value)
    decreases |t|
  {
    if t == [] then None
    else if SnapshotAt(t).Some? then SnapshotAt(t)
    else SearchSnapshot(t[1..])
  }

  /** The search returns the group of the leftmost position where the pattern
      matches, and finds nothing exactly when it matches nowhere. */
  lemma SearchIsLeftmost(t: string)
    ensures SearchSnapshot(t).Some? ==>
      exists p :: 0 <= p < |t| && SnapshotAt(t[p..]) == SearchSnapshot(t)
        && forall q :: 0 <= q < p ==> SnapshotAt(t[q..]).None?
    ensures SearchSnapshot(t).None? <==> forall p :: 0 <= p <= |t| ==> SnapshotAt(t[p..]).None?
  {
    SearchFindsFirst(t);
    SearchNoneIff(t);
  }

  lemma {:induction false} SearchFindsFirst(t: string)
    ensures SearchSnapshot(t).Some? ==>
      exists p :: 0 <= p < |t| && SnapshotAt(t[p..]) == SearchSnapshot(t)
        && forall q :: 0 <= q < p ==> SnapshotAt(t[q..]).None?
    decreases |t|
  {
    if t != [] {
      assert t[0..] == t;
      if SnapshotAt(t).None? && SearchSnapshot(t[1..]).Some? {
        SearchFindsFirst(t[1..]);
        var p :| 0 <= p < |t[1..]| && SnapshotAt(t[1..][p..]) == SearchSnapshot(t[1..])
          && forall q :: 0 <= q < p ==> SnapshotAt(t[1..][q..]).None?;
        SuffixShift(t);
        assert SnapshotAt(t[p + 1..]) == SearchSnapshot(t);
        forall q | 0 <= q < p + 1 ensures SnapshotAt(t[q..]).None? {
          if q > 0 { assert t[q..] == t[1..][q - 1..]; }
        }
      }
    }
  }

  lemma {:induction false} SearchNoneIff(t: string)
    ensures SearchSnapshot(t).None? <==> forall p :: 0 <= p <= |t| ==> SnapshotAt(t[p..]).None?
    decreases |t|
  {
    if t != [] {
      SearchNoneIff(t[1..]);
      SuffixShift(t);
      assert t[0..] == t;
      if SearchSnapshot(t).None? {
        forall p | 0 <= p <= |t| ensures SnapshotAt(t[p..]).None? {
          if p > 0 { assert t[p..] == t[1..][p - 1..]; }
        }
      } else if SnapshotAt(t).None? {
        var p :| 0 <= p <= |t[1..]| && SnapshotAt(t[1..][p..]).Some?;
        assert t[p + 1..] == t[1..][p..];
      }
    }
  }

  /** The suffixes of `t` after its first character are those of `t[1..]`. */
  lemma SuffixShift(t: string)
    requires t != []
    ensures forall p :: 1 <= p <= |t| ==> t[p..] == t[1..][p - 1..]
  {
  }

  /** restic's "snapshot <id> saved" line yields the id. */
  lemma SavedLineParsed(id: string, rest: string)
    requires id != [] && AllWord(id)
    ensures SearchSnapshot("snapshot " + id + " saved" + rest) == Some(id)
  {
    var t := "snapshot " + id + " saved" + rest;
    assert t[..9] == "snapshot ";
    assert t[9..] == id + (" saved" + rest);
    WordRunOfWord(id, " saved" + rest);
    assert t[9 + |id|..] == " saved" + rest;
  }

  // ---- `run` ----

  /** The backup command: location, "backup", hostname, tags, rules, the
      profile's own arguments, and `--dry-run` last when set. */
  function BackupArgs(h: Helpers, config: RootBackupConfiguration, name: string, profile: BackupProfile,
                      groups: seq<string>, primary: string, dryRun: bool): (args: seq<string>)
    ensures var head := h.locationArgs(config, primary, false) + ["backup"];
      var body := h.hostnameArgs(profile) + h.tagArgs(config, name) + h.inclusionArgs(config, name, groups)
                  + profile.args.GetOr([]);
      var tail := if dryRun then 1 else 0;
      |args| == |head| + |body| + tail && args[..|head|] == head && args[|head|..|args| - tail] == body
      && (dryRun ==> args[|args| - 1] == "--dry-run")
  {
    h.locationArgs(config, primary, false) + ["backup"] + h.hostnameArgs(profile)
    + h.tagArgs(config, name) + h.inclusionArgs(config, name, groups) + profile.args.GetOr([])
    + (if dryRun then ["--dry-run"] else [])
  }

  /** `restic copy`: destination in its plain form, "copy", source in its
      from-form, the snapshots; the destination's environment wins. */
  function CopyCall(h: Helpers, config: RootBackupConfiguration, source: string, dest: string,
                    snapshots: seq<string>): Call
  {
    Call(h.locationArgs(config, dest, false) + ["copy"] + h.locationArgs(config, source, true) + snapshots,
         Overlay(h.executionEnv(config, source), h.executionEnv(config, dest)))
  }

  /** One copy per secondary location, in order. */
  function CopyPlan(h: Helpers, config: RootBackupConfiguration, primary: string, dests: seq<string>,
                    snapshot: string): (plan: seq<Call>)
    ensures |plan| == |dests|
    ensures forall k :: 0 <= k < |dests| ==> plan[k] == CopyCall(h, config, primary, dests[k], [snapshot])
  {
    if dests == [] then []
    else CopyPlan(h, config, primary, dests[..|dests| - 1], snapshot)
         + [CopyCall(h, config, primary, dests[|dests| - 1], [snapshot])]
  }

  /** Whether a list option was given: an empty list counts as absent. */
  predicate Given(xs: Option<seq<string>>) {
    xs.Some? && xs.value != []
  }

  /** Everything `app_run` does, given the exit code and output of the backup
      and the exit codes of the copies. */
  function Run(h: Helpers, config: RootBackupConfiguration, name: string, groups: seq<string>, noCopy: bool,
               locationsOverride: Option<seq<string>>, dryRun: bool, backupExit: int, backupOutput: string,
               copyExits: nat -> int): Outcome
  {
    match ProfilePolicy(h, config, name)
    case Err(e) => Outcome([], Some(e))
    case Ok(pp) =>
      var locations := h.policyLocations(pp.1);
      if locations == [] then Outcome([], Some(PolicyHasNoLocations))
      else
        var primary := locations[0];
        var skipCopies := noCopy || Given(locationsOverride);
        var backup := Call(BackupArgs(h, config, name, pp.0, groups, primary, dryRun),
                           h.executionEnv(config, primary));
        if backupExit != 0 && backupExit != 3 then Outcome([backup], Some(CommandFailed(backupExit)))
        else if dryRun then Outcome([backup], None)
        else match SearchSnapshot(backupOutput)
          case None => Outcome([backup], Some(SnapshotNotParsed))
          case Some(snapshot) =>
            if |locations| > 1 && !skipCopies then
              var copies := Execute(CopyPlan(h, config, primary, locations[1..], snapshot), copyExits,
                                    |locations| - 1);
              Outcome([backup] + copies.calls, copies.error)
            else Outcome([backup], None)
  }

  /** `app_run`. */
  method AppRun(h: Helpers, config: RootBackupConfiguration, name: string, groups: seq<string>, noCopy: bool,
                locationsOverride: Option<seq<string>>, dryRun: bool, backupExit: int, backupOutput: string,
                copyExits: nat -> int)
    returns (out: Outcome)
    ensures out == Run(h, config, name, groups, noCopy, locationsOverride, dryRun, backupExit, backupOutput,
                       copyExits)
  {
    var resolved := ProfilePolicy(h, config, name);
    if resolved.Err? {
      return Outcome([], Some(resolved.error));
    }
    var profile := resolved.value.0;
    var policy := resolved.value.1;
    var locations := h.policyLocations(policy);
    if |locations| == 0 {
      return Outcome([], Some(PolicyHasNoLocations));
    }
    var primary := locations[0];
    var skipCopies := noCopy;
    if locationsOverride.Some? && locationsOverride.value != [] {
      skipCopies := true;
    }
    var args := h.locationArgs(config, primary, false) + ["backup"] + h.hostnameArgs(profile)
      + h.tagArgs(config, name) + h.inclusionArgs(config, name, groups) + profile.args.GetOr([])
      + (if dryRun then ["--dry-run"] else []);
    var primaryEnv := h.executionEnv(config, primary);
    var backup := Call(args, primaryEnv);
    if backupExit != 0 && backupExit != 3 {
      return Outcome([backup], Some(CommandFailed(backupExit)));
    }
    if dryRun {
      return Outcome([backup], None);
    }
    var found := SearchSnapshot(backupOutput);
    if found.None? {
      return Outcome([backup], Some(SnapshotNotParsed));
    }
    if |locations| > 1 && !skipCopies {
      var copies := CopyToSecondaries(h, config, primary, locations[1..], found.value, copyExits);
      return Outcome([backup] + copies.calls, copies.error);
    }
    out := Outcome([backup], None);
  }

  /** The copy loop of `app_run`: the new snapshot goes from the primary
      location to each secondary location in turn. */
  method CopyToSecondaries(h: Helpers, config: RootBackupConfiguration, primary: string, dests: seq<string>,
                           snapshot: string, copyExits: nat -> int)
    returns (out: Outcome)
    ensures out == Execute(CopyPlan(h, config, primary, dests, snapshot), copyExits, |dests|)
  {
    ghost var plan := CopyPlan(h, config, primary, dests, snapshot);
    var copies: seq<Call> := [];
    var i := 0;
    while i < |dests|
      invariant 0 <= i <= |dests|
      invariant Execute(plan, copyExits, i).calls == copies && Execute(plan, copyExits, i).error.None?
    {
      var copy := CopyCall(h, config, primary, dests[i], [snapshot]);
      assert copy == plan[i];
      ExecuteStep(plan, copyExits, i);
      copies := copies + [copy];
      if copyExits(i) != 0 {
        ExecuteErrorPersists(plan, copyExits, i + 1, |plan|);
        return Outcome(copies, Some(CommandFailed(copyExits(i))));
      }
      i := i + 1;
    }
    out := Outcome(copies, None);
  }

  /** Whether `run` reaches the point where it may copy. */
  predicate BackupSucceeded(h: Helpers, config: RootBackupConfiguration, name: string, dryRun: bool,
                            backupExit: int, backupOutput: string)
  {
    ProfilePolicy(h, config, name).Ok? && h.policyLocations(ProfilePolicy(h, config, name).value.1) != []
    && (backupExit == 0 || backupExit == 3) && !dryRun && SearchSnapshot(backupOutput).Some?
  }

  /** The first call of `run` is the backup to the policy's first location;
      a failed backup, a dry run and unparsable output each end the command
      before any copy. */
  lemma BackupCall(h: Helpers, config: RootBackupConfiguration, name: string, groups: seq<string>, noCopy: bool,
                   locationsOverride: Option<seq<string>>, dryRun: bool, backupExit: int, backupOutput: string,
                   copyExits: nat -> int)
    requires ProfilePolicy(h, config, name).Ok?
    ensures var out := Run(h, config, name, groups, noCopy, locationsOverride, dryRun, backupExit,
                           backupOutput, copyExits);
      var pp := ProfilePolicy(h, config, name).value;
      var locations := h.policyLocations(pp.1);
      (locations == [] ==> out == Outcome([], Some(PolicyHasNoLocations)))
      && (locations != [] ==>
            |out.calls| >= 1
            && out.calls[0] == Call(BackupArgs(h, config, name, pp.0, groups, locations[0], dryRun),
                                    h.executionEnv(config, locations[0])))
    ensures var out := Run(h, config, name, groups, noCopy, locationsOverride, dryRun, backupExit,
                           backupOutput, copyExits);
      var locations := h.policyLocations(ProfilePolicy(h, config, name).value.1);
      locations != [] && backupExit != 0 && backupExit != 3 ==>
        |out.calls| == 1 && out.error == Some(CommandFailed(backupExit))
    ensures var out := Run(h, config, name, groups, noCopy, locationsOverride, dryRun, backupExit,
                           backupOutput, copyExits);
      var locations := h.policyLocations(ProfilePolicy(h, config, name).value.1);
      locations != [] && (backupExit == 0 || backupExit == 3) && dryRun ==>
        |out.calls| == 1 && out.error.None?
    ensures var out := Run(h, config, name, groups, noCopy, locationsOverride, dryRun, backupExit,
                           backupOutput, copyExits);
      var locations := h.policyLocations(ProfilePolicy(h, config, name).value.1);
      locations != [] && (backupExit == 0 || backupExit == 3) && !dryRun && SearchSnapshot(backupOutput).None? ==>
        |out.calls| == 1 && out.error == Some(SnapshotNotParsed)
  {
  }

  /** Secondary copies are made exactly when the backup went through, the
      policy has more than one location, and neither `--no-copy` nor a location
      override was given; the k-th copy goes from the primary location to the
      k-th secondary location and carries the parsed snapshot id. */
  lemma CopyRule(h: Helpers, config: RootBackupConfiguration, name: string, groups: seq<string>, noCopy: bool,
                 locationsOverride: Option<seq<string>>, dryRun: bool, backupExit: int, backupOutput: string,
                 copyExits: nat -> int)
    ensures var out := Run(h, config, name, groups, noCopy, locationsOverride, dryRun, backupExit,
                           backupOutput, copyExits);
      |out.calls| > 1 <==>
        BackupSucceeded(h, config, name, dryRun, backupExit, backupOutput)
        && |h.policyLocations(ProfilePolicy(h, config, name).value.1)| > 1
        && !noCopy && !Given(locationsOverride)
    ensures var out := Run(h, config, name, groups, noCopy, locationsOverride, dryRun, backupExit,
                           backupOutput, copyExits);
      |out.calls| > 1 ==>
        var locations := h.policyLocations(ProfilePolicy(h, config, name).value.1);
        |out.calls| <= |locations|
        && forall k :: 1 <= k < |out.calls| ==>
          out.calls[k] == CopyCall(h, config, locations[0], locations[k], [SearchSnapshot(backupOutput).value])
  {
    var out := Run(h, config, name, groups, noCopy, locationsOverride, dryRun, backupExit, backupOutput,
                   copyExits);
    if BackupSucceeded(h, config, name, dryRun, backupExit, backupOutput) {
      var locations := h.policyLocations(ProfilePolicy(h, config, name).value.1);
      if |locations| > 1 && !noCopy && !Given(locationsOverride) {
        var snapshot := SearchSnapshot(backupOutput).value;
        var plan := CopyPlan(h, config, locations[0], locations[1..], snapshot);
        ExecuteRunsUntilFailure(plan, copyExits, |locations| - 1);
        var copies := Execute(plan, copyExits, |locations| - 1);
        assert out.calls == [out.calls[0]] + copies.calls;
        assert |copies.calls| >= 1 by {
          assert |locations| - 1 >= 1;
          if copies.error.None? { assert copies.calls == plan[..|locations| - 1]; }
        }
        forall k | 1 <= k < |out.calls|
          ensures out.calls[k] == CopyCall(h, config, locations[0], locations[k], [snapshot])
        {
          assert out.calls[k] == copies.calls[k - 1] == plan[k - 1];
        }
      }
    }
  }

  /** A location override does not change where the backup goes: it behaves
      exactly like `--no-copy`. */
  lemma OverrideOnlyDisablesCopies(h: Helpers, config: RootBackupConfiguration, name: string,
                                   groups: seq<string>, noCopy: bool, locationsOverride: Option<seq<string>>,
                                   dryRun: bool, backupExit: int, backupOutput: string, copyExits: nat -> int)
    requires Given(locationsOverride)
    ensures Run(h, config, name, groups, noCopy, locationsOverride, dryRun, backupExit, backupOutput, copyExits)
         == Run(h, config, name, groups, true, None, dryRun, backupExit, backupOutput, copyExits)
  {
  }

  // ---- `init` ----

  /** The outcome of one foreground restic call. */
  function Foreground(h: Helpers, call: Call, exit: int): Outcome {
    Outcome([call], if exit in h.foregroundOk then None else Some(CommandFailed(exit)))
  }

  /** `app_init_location`: initialise `location`, copying the chunker
      parameters of `parent` when one is named. */
  function InitLocation(h: Helpers, config: RootBackupConfiguration, location: string, extraArgs: seq<string>,
                        parent: Option<string>, exit: int): (out: Outcome)
    ensures |out.calls| <= 1
    ensures out.calls == [] <==> Truthy(parent) && !h.compatible(config, location, parent.value)
    ensures out.calls == [] ==> out.error == Some(IncompatibleLocations(location, parent.value))
    ensures out.calls != [] ==>
      var args := out.calls[0].args;
      var own := h.locationArgs(config, location, false) + extraArgs + ["init"];
      |args| >= |own| && args[..|own|] == own
      && (!Truthy(parent) ==> args == own && out.calls[0].env == h.executionEnv(config, location))
      && (Truthy(parent) ==>
            args[|own|..] == h.locationArgs(config, parent.value, true) + ["--copy-chunker-params"])
    ensures out.calls != [] && Truthy(parent) ==>
      var own := h.executionEnv(config, location);
      var top := h.executionEnv(config, parent.value);
      out.calls[0].env.Keys == own.Keys + top.Keys
      && (forall k :: k in top ==> out.calls[0].env[k] == top[k])
      && (forall k :: k in own && k !in top ==> out.calls[0].env[k] == own[k])
    ensures out.calls != [] ==> (out.error.None? <==> exit in h.foregroundOk)
  {
    var env := h.executionEnv(config, location);
    var args := h.locationArgs(config, location, false) + extraArgs + ["init"];
    if Truthy(parent) then
      if !h.compatible(config, location, parent.value) then
        Outcome([], Some(IncompatibleLocations(location, parent.value)))
      else
        var withParent := args + h.locationArgs(config, parent.value, true) + ["--copy-chunker-params"];
        assert withParent[..|args|] == args;
        assert withParent[|args|..] == h.locationArgs(config, parent.value, true) + ["--copy-chunker-params"];
        Foreground(h, Call(withParent, Overlay(env, h.executionEnv(config, parent.value))), exit)
    else
      Foreground(h, Call(args, env), exit)
  }

  // ---- `copy` ----

  /** `app_copy`: the two locations are checked before anything runs. */
  function CopySnapshots(h: Helpers, config: RootBackupConfiguration, source: string, destination: string,
                         snapshots: seq<string>, exit: int): (out: Outcome)
    requires snapshots != []
    ensures out.calls == [] <==> !h.compatible(config, source, destination)
    ensures out.calls == [] ==> out.error == Some(IncompatibleLocations(source, destination))
    ensures out.calls != [] ==> out.calls == [CopyCall(h, config, source, destination, snapshots)]
    ensures out.calls != [] ==> (out.error.None? <==> exit in h.foregroundOk)
  {
    if !h.compatible(config, source, destination) then
      Outcome([], Some(IncompatibleLocations(source, destination)))
    else
      Foreground(h, CopyCall(h, config, source, destination, snapshots), exit)
  }

  /** A copy call: the destination's arguments come first, "copy", then the
      source's from-form arguments and the snapshots last; every variable of
      the destination's environment wins over the source's. */
  lemma CopyCallLayout(h: Helpers, config: RootBackupConfiguration, source: string, dest: string,
                       snapshots: seq<string>)
    ensures var call := CopyCall(h, config, source, dest, snapshots);
      var d := h.locationArgs(config, dest, false);
      var s := h.locationArgs(config, source, true);
      |call.args| == |d| + 1 + |s| + |snapshots|
      && call.args[..|d|] == d && call.args[|d|] == "copy"
      && call.args[|d| + 1..|d| + 1 + |s|] == s
      && call.args[|d| + 1 + |s|..] == snapshots
    ensures var call := CopyCall(h, config, source, dest, snapshots);
      call.env.Keys == h.executionEnv(config, source).Keys + h.executionEnv(config, dest).Keys
      && forall k :: k in h.executionEnv(config, dest) ==> call.env[k] == h.executionEnv(config, dest)[k]
  {
    var d := h.locationArgs(config, dest, false);
    var s := h.locationArgs(config, source, true);
    var args := d + ["copy"] + s + snapshots;
    assert args[..|d|] == d;
    assert args[|d| + 1..|d| + 1 + |s|] == s;
    assert args[|d| + 1 + |s|..] == snapshots;
  }

  /** A copy command line never gives a flag twice: when the location helper
      yields what `getBaseArgsForLocation` yields for the two locations, under
      some dictionary reading `hc` of the configuration, no flag of the
      destination's arguments is a flag of the source's. */
  lemma CopyCallFlagsDisjoint(h: Helpers, config: RootBackupConfiguration, source: string, dest: string,
                              snapshots: seq<string>, hc: HelperConfig.Config, fs: HelperConfig.FileSystem)
    requires Helper.BaseArgsForLocation(hc, dest, false, fs).Ok?
    requires Helper.BaseArgsForLocation(hc, source, true, fs).Ok?
    requires h.locationArgs(config, dest, false) == Helper.BaseArgsForLocation(hc, dest, false, fs).value.tokens
    requires h.locationArgs(config, source, true) == Helper.BaseArgsForLocation(hc, source, true, fs).value.tokens
    ensures var args := CopyCall(h, config, source, dest, snapshots).args;
      var n := |h.locationArgs(config, dest, false)|;
      var m := |h.locationArgs(config, source, true)|;
      n % 2 == 0 && m % 2 == 0 && n + 1 + m <= |args|
      && var destArgs := args[..n];
      var sourceArgs := args[n + 1..n + 1 + m];
      forall i, j :: 0 <= i < n / 2 && 0 <= j < m / 2 ==> destArgs[2 * i] != sourceArgs[2 * j]
  {
    CopyCallLayout(h, config, source, dest, snapshots);
    Helper.BaseArgsColumn(hc, dest, false, fs);
    Helper.BaseArgsColumn(hc, source, true, fs);
    Helper.CopyFlagsDisjoint(hc, dest, source, fs);
  }

  /** Each copy that `run` makes is the call `copy` would make for the same
      two locations and the snapshot, when they are compatible. */
  lemma RunCopyIsCopyCommand(h: Helpers, config: RootBackupConfiguration, primary: string, dest: string,
                             snapshot: string, exit: int)
    requires h.compatible(config, primary, dest)
    ensures CopySnapshots(h, config, primary, dest, [snapshot], exit).calls
         == CopyPlan(h, config, primary, [dest], snapshot)
  {
  }

  // ---- `apply` ----

  /** `restic forget` for one location, without grouping so that the policy
      applies across paths and tags. */
  function ForgetArgs(h: Helpers, config: RootBackupConfiguration, profileName: string, policy: BackupPolicy,
                      location: string, dryRun: bool, prune: bool): (args: seq<string>)
    ensures var head := h.locationArgs(config, location, false) + ["forget", "--group-by", ""];
      |args| >= |head| && args[..|head|] == head
    ensures dryRun && prune ==> |args| >= 2 && args[|args| - 2..] == ["--dry-run", "--prune"]
    ensures dryRun && !prune ==> args[|args| - 1] == "--dry-run"
    ensures !dryRun && prune ==> args[|args| - 1] == "--prune"
    ensures |args| == |h.locationArgs(config, location, false)| + 3 + |h.tagArgs(config, profileName)|
      + |h.retentionArgs(config, policy)| + (if dryRun then 1 else 0) + (if prune then 1 else 0)
    ensures var head := h.locationArgs(config, location, false) + ["forget", "--group-by", ""];
      var tags := h.tagArgs(config, profileName);
      args[|head|..|head| + |tags|] == tags
      && args[|head| + |tags|..|head| + |tags| + |h.retentionArgs(config, policy)|] == h.retentionArgs(config, policy)
  {
    var head := h.locationArgs(config, location, false) + ["forget", "--group-by", ""];
    var tags := h.tagArgs(config, profileName);
    var retention := h.retentionArgs(config, policy);
    var body := head + tags + retention;
    assert body[..|head|] == head;
    assert body[|head|..|head| + |tags|] == tags;
    assert body[|head| + |tags|..] == retention;
    var withDry := body + (if dryRun then ["--dry-run"] else []);
    var args := withDry + (if prune then ["--prune"] else []);
    assert args[..|body|] == body;
    assert args[..|head|] == head;
    assert args[|head|..|head| + |tags|] == body[|head|..|head| + |tags|];
    assert args[|head| + |tags|..|body|] == retention;
    args
  }

  function ForgetPlan(h: Helpers, config: RootBackupConfiguration, profileName: string, policy: BackupPolicy,
                      locations: seq<string>, dryRun: bool, prune: bool): (plan: seq<Call>)
    ensures |plan| == |locations|
    ensures forall k :: 0 <= k < |locations| ==>
      plan[k] == Call(ForgetArgs(h, config, profileName, policy, locations[k], dryRun, prune),
                      h.executionEnv(config, locations[k]))
  {
    if locations == [] then []
    else ForgetPlan(h, config, profileName, policy, locations[..|locations| - 1], dryRun, prune)
         + [Call(ForgetArgs(h, config, profileName, policy, locations[|locations| - 1], dryRun, prune),
                 h.executionEnv(config, locations[|locations| - 1]))]
  }

  /** The locations `apply` works on: the override when given, otherwise the
      policy's. */
  function ApplyLocations(h: Helpers, policy: BackupPolicy, locationsOverride: Option<seq<string>>): seq<string> {
    if Given(locationsOverride) then locationsOverride.value else h.policyLocations(policy)
  }

  function Apply(h: Helpers, config: RootBackupConfiguration, profileName: string, prune: bool,
                 locationsOverride: Option<seq<string>>, dryRun: bool, exits: nat -> int): Outcome
  {
    match ProfilePolicy(h, config, profileName)
    case Err(e) => Outcome([], Some(e))
    case Ok(pp) =>
      var locations := ApplyLocations(h, pp.1, locationsOverride);
      Execute(ForgetPlan(h, config, profileName, pp.1, locations, dryRun, prune), exits, |locations|)
  }

  /** `app_apply`. */
  method AppApply(h: Helpers, config: RootBackupConfiguration, profileName: string, prune: bool,
                  locationsOverride: Option<seq<string>>, dryRun: bool, exits: nat -> int)
    returns (out: Outcome)
    ensures out == Apply(h, config, profileName, prune, locationsOverride, dryRun, exits)
  {
    var resolved := ProfilePolicy(h, config, profileName);
    if resolved.Err? {
      return Outcome([], Some(resolved.error));
    }
    var policy := resolved.value.1;
    var locations := if locationsOverride.Some? && locationsOverride.value != [] then locationsOverride.value
                     else h.policyLocations(policy);
    out := ForgetEach(h, config, profileName, policy, locations, dryRun, prune, exits);
  }

  /** The loop of `app_apply`: one forget per location, stopping at the first
      failure. */
  method ForgetEach(h: Helpers, config: RootBackupConfiguration, profileName: string, policy: BackupPolicy,
                    locations: seq<string>, dryRun: bool, prune: bool, exits: nat -> int)
    returns (out: Outcome)
    ensures var run := Execute(ForgetPlan(h, config, profileName, policy, locations, dryRun, prune), exits,
                               |locations|);
      out.calls == run.calls && out.error == run.error
  {
    ghost var plan := ForgetPlan(h, config, profileName, policy, locations, dryRun, prune);
    var calls: seq<Call> := [];
    var i := 0;
    while i < |locations|
      invariant 0 <= i <= |locations|
      invariant Execute(plan, exits, i).calls == calls && Execute(plan, exits, i).error.None?
    {
      var location := locations[i];
      var call := Call(ForgetArgs(h, config, profileName, policy, location, dryRun, prune),
                       h.executionEnv(config, location));
      assert call == plan[i];
      ExecuteStep(plan, exits, i);
      calls := calls + [call];
      if exits(i) != 0 {
        ExecuteErrorPersists(plan, exits, i + 1, |plan|);
        return Outcome(calls, Some(CommandFailed(exits(i))));
      }
      i := i + 1;
    }
    out := Outcome(calls, None);
  }

  /** When every forget succeeds, `apply` makes one call per location, in
      order: the override's locations when given, otherwise the policy's. */
  lemma ApplyTargets(h: Helpers, config: RootBackupConfiguration, profileName: string, prune: bool,
                     locationsOverride: Option<seq<string>>, dryRun: bool, exits: nat -> int)
    requires ProfilePolicy(h, config, profileName).Ok?
    requires forall k: nat :: exits(k) == 0
    ensures var policy := ProfilePolicy(h, config, profileName).value.1;
      var locations := if Given(locationsOverride) then locationsOverride.value else h.policyLocations(policy);
      var out := Apply(h, config, profileName, prune, locationsOverride, dryRun, exits);
      out.error.None? && |out.calls| == |locations|
      && forall k :: 0 <= k < |locations| ==>
        out.calls[k].env == h.executionEnv(config, locations[k])
        && out.calls[k].args == ForgetArgs(h, config, profileName, policy, locations[k], dryRun, prune)
  {
    var policy := ProfilePolicy(h, config, profileName).value.1;
    var locations := ApplyLocations(h, policy, locationsOverride);
    var plan := ForgetPlan(h, config, profileName, policy, locations, dryRun, prune);
    ExecuteRunsUntilFailure(plan, exits, |locations|);
    assert plan[..|locations|] == plan;
  }

  // ---- `archive` ----

  /** The command line of `archive`. */
  datatype ArchiveRequest = ArchiveRequest(
    destination: string,
    profileName: string,
    snapshots: seq<string>,
    locationOverride: Option<string>,
    encrypt: bool,
    password: Option<string>)

  /** What `archive` sees of the machine before its loop: whether openssl, pv
      and zstd are installed, `expanduser`, and the paths that exist. */
  datatype Host = Host(toolsAvailable: bool, expand: string -> string, existing: set<string>)

  /** The configured staging directory: `archive.cache` when there is an
      archive section (even an empty one), the top-level `cache` otherwise. */
  function StagingValue(config: RootBackupConfiguration): (v: Option<string>)
    ensures config.archive.Some? ==> v == Some(config.archive.value.cache)
    ensures config.archive.None? ==> v == config.cache
  {
    if config.archive.Some? then Some(config.archive.value.cache) else config.cache
  }

  /** The staging directory: the expanded configured value when it is not
      empty, the destination directory otherwise. */
  function StagingDir(config: RootBackupConfiguration, expand: string -> string, destDir: string): (dir: string)
    ensures Truthy(StagingValue(config)) ==> dir == expand(StagingValue(config).value)
    ensures !Truthy(StagingValue(config)) ==> dir == destDir
  {
    var value := StagingValue(config);
    if Truthy(value) then expand(value.value) else destDir
  }

  /** The password file when encrypting: `--password` (a path, which counts
      as given even when empty), otherwise a non-empty `archive.password_file`;
      encrypting without either is an error. */
  function EncryptionPassword(config: RootBackupConfiguration, encrypt: bool, password: Option<string>,
                              expand: string -> string): (r: Result<Option<string>>)
    ensures !encrypt ==> r == Ok(None)
    ensures encrypt && password.Some? ==> r == Ok(Some(expand(password.value)))
    ensures encrypt && password.None? ==>
      (r.Err? <==> config.archive.None? || config.archive.value.passwordFile == "")
    ensures encrypt && password.None? && r.Ok? ==> r.value == Some(expand(config.archive.value.passwordFile))
    ensures r.Err? ==> r.error == NoEncryptionPassword
  {
    if !encrypt then Ok(None)
    else if password.Some? then Ok(Some(expand(password.value)))
    else if config.archive.Some? && config.archive.value.passwordFile != "" then
      Ok(Some(expand(config.archive.value.passwordFile)))
    else Err(NoEncryptionPassword)
  }

  /** `profile.archive_name or profile_name`. */
  function ShortName(profile: BackupProfile, profileName: string): (s: string)
    ensures Truthy(profile.archiveName) ==> s == profile.archiveName.value
    ensures !Truthy(profile.archiveName) ==> s == profileName
  {
    if Truthy(profile.archiveName) then profile.archiveName.value else profileName
  }

  /** `location_override or locations[0]`. */
  function ArchiveLocation(h: Helpers, policy: BackupPolicy, locationOverride: Option<string>): Result<string> {
    if Truthy(locationOverride) then Ok(locationOverride.value)
    else if h.policyLocations(policy) == [] then Err(PolicyHasNoLocations)
    else Ok(h.policyLocations(policy)[0])
  }

  /** Everything `app_archive` resolves before its loop. */
  function ArchiveJob(h: Helpers, config: RootBackupConfiguration, req: ArchiveRequest, host: Host)
    : Result<Archive.Job>
  {
    if !host.toolsAvailable then Err(ToolsMissing)
    else
      var pp :- ProfilePolicy(h, config, req.profileName);
      var locationName :- ArchiveLocation(h, pp.1, req.locationOverride);
      var destDir := host.expand(req.destination);
      if destDir !in host.existing then Err(DestinationMissing(destDir))
      else
        var password :- EncryptionPassword(config, req.encrypt, req.password, host.expand);
        Ok(Archive.Job(h.locationArgs(config, locationName, false), true, ShortName(pp.0, req.profileName),
                       password, Truthy(StagingValue(config)), StagingDir(config, host.expand, destDir),
                       destDir, Some(h.executionEnv(config, locationName))))
  }

  /** No snapshot named means the latest one. */
  function SnapshotsOrLatest(snapshots: seq<string>): (names: seq<string>)
    ensures names != []
    ensures snapshots != [] ==> names == snapshots
  {
    if snapshots == [] then ["latest"] else snapshots
  }

  function ArchiveCommand(h: Helpers, config: RootBackupConfiguration, req: ArchiveRequest, host: Host,
                          w: Archive.World): Archive.Outcome
  {
    match ArchiveJob(h, config, req, host)
    case Err(e) => Archive.Outcome([], host.existing, Some(e))
    case Ok(job) => Archive.ArchiveAll(job, w, host.existing, SnapshotsOrLatest(req.snapshots))
  }

  /** `app_archive`. */
  method AppArchive(h: Helpers, config: RootBackupConfiguration, req: ArchiveRequest, host: Host,
                    w: Archive.World)
    returns (out: Archive.Outcome)
    ensures out == ArchiveCommand(h, config, req, host, w)
  {
    var job := ArchiveJob(h, config, req, host);
    if job.Err? {
      return Archive.Outcome([], host.existing, Some(job.error));
    }
    var names := req.snapshots;
    if |names| == 0 {
      names := ["latest"];
    }
    out := Archive.ArchiveSnapshots(job.value, w, host.existing, names);
  }

  /** The settings `archive` resolves: archives are encrypted exactly when
      asked, a separate staging directory is used exactly when one is
      configured, and a failure to resolve them runs nothing. */
  lemma ArchiveSettings(h: Helpers, config: RootBackupConfiguration, req: ArchiveRequest, host: Host)
    ensures ArchiveJob(h, config, req, host).Ok? ==>
      var job := ArchiveJob(h, config, req, host).value;
      (job.password.Some? <==> req.encrypt)
      && (job.cacheEnabled <==> Truthy(StagingValue(config)))
      && (!job.cacheEnabled ==> job.cacheDir == job.destDir)
      && job.destDir in host.existing
    ensures ArchiveJob(h, config, req, host).Ok? ==>
      var job := ArchiveJob(h, config, req, host).value;
      var location := ArchiveLocation(h, ProfilePolicy(h, config, req.profileName).value.1, req.locationOverride).value;
      job.repoArgs == h.locationArgs(config, location, false) && job.env == Some(h.executionEnv(config, location))
    ensures !host.toolsAvailable ==> ArchiveJob(h, config, req, host) == Err(ToolsMissing)
    ensures host.toolsAvailable && ProfilePolicy(h, config, req.profileName).Err? ==>
      ArchiveJob(h, config, req, host) == Err(ProfilePolicy(h, config, req.profileName).error)
    ensures var pp := ProfilePolicy(h, config, req.profileName);
      host.toolsAvailable && pp.Ok? && ArchiveLocation(h, pp.value.1, req.locationOverride).Ok?
      && host.expand(req.destination) !in host.existing
      ==> ArchiveJob(h, config, req, host) == Err(DestinationMissing(host.expand(req.destination)))
    ensures var pp := ProfilePolicy(h, config, req.profileName);
      ArchiveJob(h, config, req, host).Ok? <==>
        host.toolsAvailable && pp.Ok? && ArchiveLocation(h, pp.value.1, req.locationOverride).Ok?
        && host.expand(req.destination) in host.existing
        && EncryptionPassword(config, req.encrypt, req.password, host.expand).Ok?
    ensures ArchiveJob(h, config, req, host).Err? ==>
      forall w :: ArchiveCommand(h, config, req, host, w).actions == []
  {
  }

  // ---- `daemon` ----

  /** A job the daemon schedules: `run` for the profile, with every group, the
      copies enabled and no location override. */
  datatype ScheduledJob = ScheduledJob(id: string, schedule: string, groups: seq<string>, noCopy: bool,
                                       locationsOverride: Option<seq<string>>)

  /** The scheduler's settings: one worker thread, missed runs coalesced, at
      most one running instance per job, no misfire grace limit. */
  datatype SchedulerSettings = SchedulerSettings(workers: nat, coalesce: bool, maxInstances: nat,
                                                 misfireGraceTime: Option<int>)

  const DaemonSettings := SchedulerSettings(1, true, 1, None)

  /** The schedule of a profile's policy when it has one. */
  function ProfileSchedule(h: Helpers, config: RootBackupConfiguration, profile: BackupProfile)
    : Result<Option<string>>
  {
    if !Truthy(profile.policy) then Ok(None)
    else
      var policy :- h.getPolicy(config, profile.policy.value);
      Ok(if Truthy(policy.schedule) then policy.schedule else None)
  }

  function JobFor(name: string, schedule: string): ScheduledJob {
    ScheduledJob(name, schedule, [], false, None)
  }

  /** The jobs for the profiles, in order. */
  function DaemonJobs(h: Helpers, config: RootBackupConfiguration, profiles: seq<(string, BackupProfile)>)
    : Result<seq<ScheduledJob>>
    decreases |profiles|
  {
    if profiles == [] then Ok([])
    else
      var before :- DaemonJobs(h, config, profiles[..|profiles| - 1]);
      var last := profiles[|profiles| - 1];
      var schedule :- ProfileSchedule(h, config, last.1);
      Ok(before + if schedule.Some? then [JobFor(last.0, schedule.value)] else [])
  }

  /** The daemon's result: the scheduler's settings, its jobs, and whether it
      started the scheduler (without jobs it warns and exits instead). */
  datatype DaemonOutcome = DaemonOutcome(settings: SchedulerSettings, jobs: seq<ScheduledJob>, started: bool,
                                         warning: Option<Warning>, error: Option<Error>)

  /** `app_daemon`. */
  method AppDaemon(h: Helpers, config: RootBackupConfiguration) returns (out: DaemonOutcome)
    ensures out.settings == SchedulerSettings(1, true, 1, None)
    ensures DaemonJobs(h, config, config.profiles).Err? ==>
      out.error == Some(DaemonJobs(h, config, config.profiles).error) && !out.started
    ensures DaemonJobs(h, config, config.profiles).Ok? ==>
      out.error.None? && out.jobs == DaemonJobs(h, config, config.profiles).value
      && (out.started <==> out.jobs != [])
      && (out.warning == Some(NoJobsScheduled) <==> !out.started)
  {
    var settings := DaemonSettings;
    var profiles := config.profiles;
    var jobs: seq<ScheduledJob> := [];
    var jobsAdded := false;
    var i := 0;
    while i < |profiles|
      invariant 0 <= i <= |profiles|
      invariant DaemonJobs(h, config, profiles[..i]) == Ok(jobs)
      invariant jobsAdded <==> jobs != []
    {
      assert profiles[..i + 1][..i] == profiles[..i];
      var name := profiles[i].0;
      var profile := profiles[i].1;
      var schedule := ProfileSchedule(h, config, profile);
      if schedule.Err? {
        DaemonErrorPersists(h, config, profiles, i + 1);
        assert profiles[..|profiles|] == profiles;
        return DaemonOutcome(settings, jobs, false, None, Some(schedule.error));
      }
      assert profiles[..i + 1][i] == profiles[i];
      if schedule.value.Some? {
        jobs := jobs + [JobFor(name, schedule.value.value)];
        jobsAdded := true;
      } else {
        assert jobs + [] == jobs;
      }
      i := i + 1;
    }
    assert profiles[..i] == profiles;
    if !jobsAdded {
      return DaemonOutcome(settings, jobs, false, Some(NoJobsScheduled), None);
    }
    out := DaemonOutcome(settings, jobs, true, None, None);
  }

  lemma {:induction false} DaemonErrorPersists(h: Helpers, config: RootBackupConfiguration,
                                               profiles: seq<(string, BackupProfile)>, k: nat)
    requires k <= |profiles|
    requires DaemonJobs(h, config, profiles[..k]).Err?
    ensures DaemonJobs(h, config, profiles) == DaemonJobs(h, config, profiles[..k])
    decreases |profiles| - k
  {
    if k < |profiles| {
      assert profiles[..k + 1][..k] == profiles[..k];
      DaemonErrorPersists(h, config, profiles, k + 1);
    } else {
      assert profiles[..k] == profiles;
    }
  }

  /** A profile gets a job, named after it, exactly when its policy has a
      schedule; every job runs with all groups, copies on and no override. */
  lemma {:induction false} JobsForScheduledProfiles(h: Helpers, config: RootBackupConfiguration,
                                                    profiles: seq<(string, BackupProfile)>)
    requires DaemonJobs(h, config, profiles).Ok?
    ensures var jobs := DaemonJobs(h, config, profiles).value;
      forall j :: j in jobs ==> j.groups == [] && !j.noCopy && j.locationsOverride.None?
    ensures var jobs := DaemonJobs(h, config, profiles).value;
      forall j :: j in jobs ==>
        exists i :: 0 <= i < |profiles| && profiles[i].0 == j.id
          && ProfileSchedule(h, config, profiles[i].1) == Ok(Some(j.schedule))
    ensures var jobs := DaemonJobs(h, config, profiles).value;
      forall i :: (0 <= i < |profiles| && ProfileSchedule(h, config, profiles[i].1).Ok?
        && ProfileSchedule(h, config, profiles[i].1).value.Some?) ==>
        JobFor(profiles[i].0, ProfileSchedule(h, config, profiles[i].1).value.value) in jobs
    decreases |profiles|
  {
    if profiles != [] {
      var n := |profiles| - 1;
      var prefix := profiles[..n];
      JobsForScheduledProfiles(h, config, prefix);
      assert forall i :: 0 <= i < n ==> prefix[i] == profiles[i];
      var jobs := DaemonJobs(h, config, profiles).value;
      var before := DaemonJobs(h, config, prefix).value;
      assert forall j :: j in before ==> j in jobs;
      forall i | 0 <= i < |profiles| && ProfileSchedule(h, config, profiles[i].1).Ok?
        && ProfileSchedule(h, config, profiles[i].1).value.Some?
        ensures JobFor(profiles[i].0, ProfileSchedule(h, config, profiles[i].1).value.value) in jobs
      {
        if i < n {
          assert profiles[i] == prefix[i];
        }
      }
      forall j | j in jobs
        ensures exists i :: (0 <= i < |profiles| && profiles[i].0 == j.id
          && ProfileSchedule(h, config, profiles[i].1) == Ok(Some(j.schedule)))
      {
        if j in before {
          var i :| 0 <= i < n && prefix[i].0 == j.id
            && ProfileSchedule(h, config, prefix[i].1) == Ok(Some(j.schedule));
          assert profiles[i] == prefix[i];
        } else {
          assert profiles[n].0 == j.id;
        }
      }
    }
  }
}

=== FILE: helper.dfy ===
/** Location, tag, host, environment and retention arguments for restic, as
    computed by spgill/backup/helper.py. */
module Helper {
  import opened Base
  import opened HelperConfig

  /** The options a location contributes, each spelled two ways. */
  datatype LocationOption = Repo | PasswordFile | PasswordCommand

  /** `locationOptionNames`: the "from" column when the location is the source
      of a copy, the "to" column otherwise. */
  function OptionName(option: LocationOption, fromRepo: bool): (flag: string)
    ensures flag != CacheDirFlag
  {
    match option
    case Repo => if fromRepo then "--from-repo" else "--repo"
    case PasswordFile => if fromRepo then "--from-password-file" else "--password-file"
    case PasswordCommand => if fromRepo then "--from-password-command" else "--password-command"
  }

  /** The "from" and "to" columns share no spelling, and within a column every
      option has its own spelling. */
  lemma OptionNamesDistinct(a: LocationOption, b: LocationOption, fa: bool, fb: bool)
    ensures OptionName(a, fa) == OptionName(b, fb) <==> a == b && fa == fb
  {
  }

  const CacheDirFlag := "--cache-dir"

  /** Tokens together with the warnings printed while producing them. */
  datatype Emitted = Emitted(tokens: seq<string>, warnings: seq<Warning>)

  /** The flag-value pairs of an even-length token list. */
  function Pairs(t: seq<string>): (ps: seq<(string, string)>)
    requires |t| % 2 == 0
    ensures |ps| == |t| / 2
    ensures forall i :: 0 <= i < |ps| ==> ps[i] == (t[2 * i], t[2 * i + 1])
  {
    if t == [] then [] else [(t[0], t[1])] + Pairs(t[2..])
  }

  lemma {:induction false} PairsAppend(a: seq<string>, b: seq<string>)
    requires |a| % 2 == 0 && |b| % 2 == 0
    ensures Pairs(a + b) == Pairs(a) + Pairs(b)
  {
    if a == [] {
      assert a + b == b;
    } else {
      assert (a + b)[2..] == a[2..] + b;
      PairsAppend(a[2..], b);
      assert Pairs(a + b) == [(a[0], a[1])] + Pairs(a[2..] + b);
    }
  }

  /** The password pair, before the location's path is read. */
  function PasswordArgs(loc: LocationData, fromRepo: bool, fs: FileSystem): Result<seq<string>>
  {
    if loc.passwordFile.Some? then
      var path :- QualifiedExistingPath(fs, loc.passwordFile.value);
      Ok([OptionName(PasswordFile, fromRepo), path])
    else if loc.passwordCommand.Some? then
      Ok([OptionName(PasswordCommand, fromRepo), loc.passwordCommand.value])
    else
      Ok([])
  }

  /** `getBaseArgsForLocation`. */
  function BaseArgsForLocation(config: Config, name: string, fromRepo: bool, fs: FileSystem)
    : (r: Result<Emitted>)
    // Errors: unknown location, missing password file, no `path` key, in that order.
    ensures LocationConfig(config, name).Err? ==> r == Err(LocationNotFound(name))
    ensures LocationConfig(config, name).Ok? ==>
      var loc := config.locations[name];
      var badFile := loc.passwordFile.Some? && fs.qualify(loc.passwordFile.value) !in fs.existing;
      && (badFile ==> r == Err(PathDoesNotExist(fs.qualify(loc.passwordFile.value))))
      && (!badFile && loc.path.None? ==> r == Err(MissingKey("path")))
      && (!badFile && loc.path.Some? ==> r.Ok?)
    ensures r.Ok? ==> var loc := config.locations[name];
      r.value.warnings == if loc.passwordFile.None? && loc.passwordCommand.None?
        then [NoPasswordConfigured(name)] else []
  {
    var loc :- LocationConfig(config, name);
    var cacheArgs := if !fromRepo && Truthy(config.cache) then [CacheDirFlag, config.cache.value] else [];
    var passwordArgs :- PasswordArgs(loc, fromRepo, fs);
    if loc.path.None? then Err(MissingKey("path"))
    else
      var t := cacheArgs + passwordArgs + [OptionName(Repo, fromRepo), loc.path.value];
      var warnings := if loc.passwordFile.None? && loc.passwordCommand.None? then [NoPasswordConfigured(name)] else [];
      Ok(Emitted(t, warnings))
  }

  /** The layout of a successful `getBaseArgsForLocation`, as flag-value
      pairs: the cache pair (destination only, when a cache is configured),
      then the password pair (a password file wins over a password command;
      with neither there is none), then the repository pair, always last. */
  lemma BaseArgsLayout(config: Config, name: string, fromRepo: bool, fs: FileSystem)
    requires BaseArgsForLocation(config, name, fromRepo, fs).Ok?
    ensures var loc := config.locations[name];
      var cp := if !fromRepo && Truthy(config.cache) then [(CacheDirFlag, config.cache.value)] else [];
      var pp := if loc.passwordFile.Some? then [(OptionName(PasswordFile, fromRepo), fs.qualify(loc.passwordFile.value))]
        else if loc.passwordCommand.Some? then [(OptionName(PasswordCommand, fromRepo), loc.passwordCommand.value)]
        else [];
      var t := BaseArgsForLocation(config, name, fromRepo, fs).value.tokens;
      |t| % 2 == 0 && Pairs(t) == cp + pp + [(OptionName(Repo, fromRepo), loc.path.value)]
  {
    var loc := config.locations[name];
    var cacheArgs := if !fromRepo && Truthy(config.cache) then [CacheDirFlag, config.cache.value] else [];
    var passwordArgs := PasswordArgs(loc, fromRepo, fs).value;
    var repoArgs := [OptionName(Repo, fromRepo), loc.path.value];
    BaseTokens(config, name, fromRepo, fs);
    PasswordPairs(loc, fromRepo, fs);
    EvenSum(|passwordArgs|, |repoArgs|);
    EvenSum(|cacheArgs|, |passwordArgs| + |repoArgs|);
    PairsOfThree(cacheArgs, passwordArgs, repoArgs);
    PairOfTwo(OptionName(Repo, fromRepo), loc.path.value);
    if !fromRepo && Truthy(config.cache) {
      PairOfTwo(CacheDirFlag, config.cache.value);
    }
  }

  lemma PairsOfThree(a: seq<string>, b: seq<string>, c: seq<string>)
    requires |a| % 2 == 0 && |b| % 2 == 0 && |c| % 2 == 0
    ensures Pairs(a + (b + c)) == Pairs(a) + Pairs(b) + Pairs(c)
  {
    EvenSum(|b|, |c|);
    assert |b + c| % 2 == 0;
    PairsAppend(a, b + c);
    PairsAppend(b, c);
  }

  lemma EvenSum(x: nat, y: nat)
    requires x % 2 == 0 && y % 2 == 0
    ensures (x + y) % 2 == 0
  {
  }

  lemma BaseTokens(config: Config, name: string, fromRepo: bool, fs: FileSystem)
    requires BaseArgsForLocation(config, name, fromRepo, fs).Ok?
    ensures var loc := config.locations[name];
      var cacheArgs := if !fromRepo && Truthy(config.cache) then [CacheDirFlag, config.cache.value] else [];
      name in config.locations && PasswordArgs(loc, fromRepo, fs).Ok? && loc.path.Some?
      && BaseArgsForLocation(config, name, fromRepo, fs).value.tokens
         == cacheArgs + (PasswordArgs(loc, fromRepo, fs).value + [OptionName(Repo, fromRepo), loc.path.value])
  {
  }

  lemma PasswordPairs(loc: LocationData, fromRepo: bool, fs: FileSystem)
    requires PasswordArgs(loc, fromRepo, fs).Ok?
    ensures var v := PasswordArgs(loc, fromRepo, fs).value;
      |v| % 2 == 0
      && Pairs(v) == if loc.passwordFile.Some? then [(OptionName(PasswordFile, fromRepo), fs.qualify(loc.passwordFile.value))]
        else if loc.passwordCommand.Some? then [(OptionName(PasswordCommand, fromRepo), loc.passwordCommand.value)]
        else []
  {
    var v := PasswordArgs(loc, fromRepo, fs).value;
    if v != [] {
      PairOfTwo(v[0], v[1]);
    }
  }

  lemma PairOfTwo(flag: string, value: string)
    ensures Pairs([flag, value]) == [(flag, value)]
  {
    assert [flag, value][2..] == [];
  }

  /** Every flag of `getBaseArgsForLocation` comes from the column that
      `fromRepo` selects (or is the destination-only `--cache-dir`). */
  lemma BaseArgsColumn(config: Config, name: string, fromRepo: bool, fs: FileSystem)
    requires BaseArgsForLocation(config, name, fromRepo, fs).Ok?
    ensures var t := BaseArgsForLocation(config, name, fromRepo, fs).value.tokens;
      |t| % 2 == 0 &&
      forall i :: 0 <= i < |t| / 2 ==>
        (t[2 * i] == CacheDirFlag && !fromRepo) || exists o :: t[2 * i] == OptionName(o, fromRepo)
  {
    BaseArgsLayout(config, name, fromRepo, fs);
    var t := BaseArgsForLocation(config, name, fromRepo, fs).value.tokens;
    var ps := Pairs(t);
    forall i | 0 <= i < |t| / 2
      ensures (t[2 * i] == CacheDirFlag && !fromRepo) || exists o :: t[2 * i] == OptionName(o, fromRepo)
    {
      assert t[2 * i] == ps[i].0;
      if ps[i].0 != CacheDirFlag {
        var o :| ps[i].0 == OptionName(o, fromRepo);
      }
    }
  }

  /** In a copy command line the destination's (to-form) and the source's
      (from-form) location arguments never use the same flag. */
  lemma CopyFlagsDisjoint(config: Config, dest: string, source: string, fs: FileSystem)
    requires BaseArgsForLocation(config, dest, false, fs).Ok?
    requires BaseArgsForLocation(config, source, true, fs).Ok?
    ensures var d := BaseArgsForLocation(config, dest, false, fs).value.tokens;
      var s := BaseArgsForLocation(config, source, true, fs).value.tokens;
      forall i, j :: 0 <= i < |d| / 2 && 0 <= j < |s| / 2 ==> d[2 * i] != s[2 * j]
  {
    BaseArgsColumn(config, dest, false, fs);
    BaseArgsColumn(config, source, true, fs);
    var d := BaseArgsForLocation(config, dest, false, fs).value.tokens;
    var s := BaseArgsForLocation(config, source, true, fs).value.tokens;
    forall i, j | 0 <= i < |d| / 2 && 0 <= j < |s| / 2 ensures d[2 * i] != s[2 * j] {
      var o :| s[2 * j] == OptionName(o, true);
      if d[2 * i] != CacheDirFlag {
        var o' :| d[2 * i] == OptionName(o', false);
        OptionNamesDistinct(o, o', true, false);
      }
    }
  }

  /** `",".join(tags)`. */
  function JoinComma(parts: seq<string>): string {
    if parts == [] then ""
    else if |parts| == 1 then parts[0]
    else parts[0] + "," + JoinComma(parts[1..])
  }

  /** Splitting at every comma: the inverse of `JoinComma` (restic splits the
      value of `--tag` this way). */
  function SplitComma(s: string): (parts: seq<string>)
    ensures |parts| >= 1
  {
    if s == [] then [""]
    else if s[0] == ',' then [""] + SplitComma(s[1..])
    else
      var rest := SplitComma(s[1..]);
      [[s[0]] + rest[0]] + rest[1..]
  }

  predicate NoComma(s: string) {
    forall i :: 0 <= i < |s| ==> s[i] != ','
  }

  lemma {:induction false} SplitCommaFree(a: string, s: string)
    requires NoComma(a)
    ensures SplitComma(a + s) == [a + SplitComma(s)[0]] + SplitComma(s)[1..]
  {
    var x := SplitComma(s);
    if a != [] {
      var t := a + s;
      assert t[0] == a[0] && a[0] != ',';
      assert t[1..] == a[1..] + s;
      assert NoComma(a[1..]) by {
        forall i | 0 <= i < |a[1..]| ensures a[1..][i] != ',' {
          assert a[1..][i] == a[i + 1];
        }
      }
      SplitCommaFree(a[1..], s);
      var rest := SplitComma(t[1..]);
      assert rest == [a[1..] + x[0]] + x[1..];
      assert SplitComma(t) == [[t[0]] + rest[0]] + rest[1..];
      assert rest[1..] == x[1..];
      assert [a[0]] + (a[1..] + x[0]) == a + x[0];
    } else {
      assert a + s == s;
      assert x == [x[0]] + x[1..];
      assert a + x[0] == x[0];
    }
  }

  /** Joining tags that contain no comma and splitting the result again gives
      back the tags. */
  lemma {:induction false} SplitJoin(tags: seq<string>)
    requires tags != []
    requires forall i :: 0 <= i < |tags| ==> NoComma(tags[i])
    ensures SplitComma(JoinComma(tags)) == tags
  {
    if |tags| == 1 {
      SplitCommaFree(tags[0], "");
      assert tags[0] + "" == tags[0];
      assert SplitComma("") == [""];
    } else {
      var rest := JoinComma(tags[1..]);
      assert JoinComma(tags) == tags[0] + ("," + rest);
      SplitCommaFree(tags[0], "," + rest);
      assert ("," + rest)[0] == ',';
      assert ("," + rest)[1..] == rest;
      assert SplitComma("," + rest) == [""] + SplitComma(rest);
      SplitJoin(tags[1..]);
      assert SplitComma(JoinComma(tags)) == [tags[0] + ""] + tags[1..];
      assert tags[0] + "" == tags[0];
      assert tags == [tags[0]] + tags[1..];
    }
  }

  /** The tag part of `getTagArgs`: nothing, or one `--tag` pair carrying
      every tag. */
  function TagArgs(tags: seq<string>): (r: seq<string>)
    ensures tags == [] <==> r == []
    ensures r != [] ==> |r| == 2 && r[0] == "--tag" && r[1] == JoinComma(tags)
  {
    if tags == [] then [] else ["--tag", JoinComma(tags)]
  }

  /** The value of `--tag` carries exactly the profile's tags. */
  lemma TagArgsCarryTags(tags: seq<string>)
    requires tags != []
    requires forall i :: 0 <= i < |tags| ==> NoComma(tags[i])
    ensures SplitComma(TagArgs(tags)[1]) == tags
  {
    SplitJoin(tags);
  }

  /** `getTagArgs`: looks the profile up first. */
  function GetTagArgs(config: Config, profileName: string): (r: Result<seq<string>>)
    ensures r.Err? <==> ProfileConfig(config, profileName).Err?
    ensures r.Ok? ==> var tags := config.profiles[profileName].tags.GetOr([]);
      && (r.value == [] <==> tags == [])
      && (r.value != [] ==> r.value == ["--tag", JoinComma(tags)])
  {
    var profile :- ProfileConfig(config, profileName);
    Ok(TagArgs(profile.tags.GetOr([])))
  }

  /** `getHostnameArgs`: nothing, or one `--host` pair. */
  function HostnameArgs(profile: ProfileData): (r: seq<string>)
    ensures r == [] <==> !Truthy(profile.hostname)
    ensures r != [] ==> r == ["--host", profile.hostname.value]
  {
    if Truthy(profile.hostname) then ["--host", profile.hostname.value] else []
  }

  /** `getResticEnv`: `cleanEnv` replaces the process environment; otherwise
      the location's `env` is laid over it. */
  function ResticEnv(config: Config, name: string, processEnv: map<string, string>)
    : (r: Result<map<string, string>>)
    ensures r.Err? <==> LocationConfig(config, name).Err?
    ensures r.Ok? && config.locations[name].cleanEnv.Some? ==>
      r.value == config.locations[name].cleanEnv.value
    ensures r.Ok? && config.locations[name].cleanEnv.None? ==>
      var own := config.locations[name].env.GetOr(map[]);
      && r.value.Keys == processEnv.Keys + own.Keys
      && (forall k :: k in own ==> r.value[k] == own[k])
      && (forall k :: k in processEnv && k !in own ==> r.value[k] == processEnv[k])
  {
    var loc :- LocationConfig(config, name);
    if loc.cleanEnv.Some? then Ok(loc.cleanEnv.value)
    else Ok(processEnv + loc.env.GetOr(map[]))
  }

  /** `getRetentionPolicyArgs`: the named policy, or the profile's default one,
      split into arguments by the shell-style tokenizer `split`. */
  function RetentionPolicyArgs(config: Config, profileName: string, policyName: Option<string>,
                               split: string -> seq<string>): (r: Result<seq<string>>)
    ensures config.policies.None? ==> r == Err(NoPoliciesSection)
    ensures config.policies.Some? && Truthy(policyName) ==>
      r == (if policyName.value in config.policies.value
            then Ok(split(config.policies.value[policyName.value]))
            else Err(PolicyNotFound(policyName.value)))
    ensures config.policies.Some? && !Truthy(policyName) ==>
      match ProfileConfig(config, profileName)
      case Err(e) => r == Err(e)
      case Ok(p) =>
        if !Truthy(p.retention) then r == Err(NoDefaultRetention(profileName))
        else if p.retention.value in config.policies.value
        then r == Ok(split(config.policies.value[p.retention.value]))
        else r == Err(PolicyNotFound(p.retention.value))
  {
    if config.policies.None? then Err(NoPoliciesSection)
    else
      var name :- if Truthy(policyName) then Ok(policyName.value)
        else
          var profile :- ProfileConfig(config, profileName);
          if Truthy(profile.retention) then Ok(profile.retention.value)
          else Err(NoDefaultRetention(profileName));
      if name in config.policies.value then Ok(split(config.policies.value[name]))
      else Err(PolicyNotFound(name))
  }

  /** Leaving the policy out is the same as naming the profile's default
      retention policy, whenever the profile has one. */
  lemma DefaultRetentionIsNamed(config: Config, profileName: string, split: string -> seq<string>)
    requires ProfileConfig(config, profileName).Ok?
    requires Truthy(ProfileConfig(config, profileName).value.retention)
    ensures RetentionPolicyArgs(config, profileName, None, split)
         == RetentionPolicyArgs(config, profileName, ProfileConfig(config, profileName).value.retention, split)
  {
  }
}

=== FILE: helper_config.dfy ===
/** The configuration as spgill/backup/helper.py reads it: untyped dictionaries
    with camelCase keys. A key that may be absent is an `Option`; a dictionary
    is "empty" (false in a condition) when none of its keys is present. */
module HelperConfig {
  import opened Base

  /** A configured value of `excludeLargerThan`: YAML may give a string
      ("500M") or, by mistake, a bare number. */
  datatype Scalar = Text(text: string) | Number(number: int)

  /** An include/exclude rule set (a profile, the global profile or a group). */
  datatype SourceData = SourceData(
    bareInclude: Option<seq<string>>,
    includeFilesFrom: Option<seq<string>>,
    includeFilesFromVerbatim: Option<seq<string>>,
    exclude: Option<seq<string>>,
    iexclude: Option<seq<string>>,
    excludeIfPresent: Option<seq<string>>,
    excludeFile: Option<seq<string>>,
    iexcludeFile: Option<seq<string>>,
    excludeCaches: Option<bool>,
    excludeLargerThan: Option<Scalar>)
  {
    predicate IsEmptyDict() {
      bareInclude.None? && includeFilesFrom.None? && includeFilesFromVerbatim.None?
      && exclude.None? && iexclude.None? && excludeIfPresent.None?
      && excludeFile.None? && iexcludeFile.None? && excludeCaches.None?
      && excludeLargerThan.None?
    }
  }

  const EmptySource := SourceData(None, None, None, None, None, None, None, None, None, None)

  /** The `location` key of a profile: one name or a list of names. */
  datatype LocationValue = Single(name: string) | Many(names: seq<string>)

  /** A profile dictionary; `locations` is the `_locations` key that
      `getProfileConfig` writes. `groups` keeps the dictionary's key order. */
  datatype ProfileData = ProfileData(
    source: SourceData,
    location: Option<LocationValue>,
    locations: Option<seq<string>>,
    tags: Option<seq<string>>,
    hostname: Option<string>,
    groups: Option<seq<(string, SourceData)>>,
    retention: Option<string>,
    args: Option<seq<string>>)
  {
    predicate IsEmptyDict() {
      source.IsEmptyDict() && location.None? && locations.None? && tags.None?
      && hostname.None? && groups.None? && retention.None? && args.None?
    }
  }

  datatype LocationData = LocationData(
    path: Option<string>,
    passwordFile: Option<string>,
    passwordCommand: Option<string>,
    env: Option<map<string, string>>,
    cleanEnv: Option<map<string, string>>)
  {
    predicate IsEmptyDict() {
      path.None? && passwordFile.None? && passwordCommand.None? && env.None? && cleanEnv.None?
    }
  }

  /** The whole configuration dictionary. An absent `locations` or `profiles`
      key reads like an empty one; `policies` maps a retention-policy name to
      the restic arguments written as one shell string. */
  datatype Config = Config(
    locations: map<string, LocationData>,
    profiles: map<string, ProfileData>,
    policies: Option<map<string, string>>,
    globalProfile: Option<SourceData>,
    cache: Option<string>)

  /** The file system as far as the tool sees it: `expanduser().absolute()` and
      the set of paths that exist. */
  datatype FileSystem = FileSystem(qualify: string -> string, existing: set<string>)

  /** `getLocationConfig`: a missing or empty location entry is an error. */
  function LocationConfig(config: Config, name: string): (r: Result<LocationData>)
    ensures r.Err? <==> name !in config.locations || config.locations[name].IsEmptyDict()
    ensures r.Err? ==> r.error == LocationNotFound(name)
    ensures r.Ok? ==> r.value == config.locations[name]
  {
    if name in config.locations && !config.locations[name].IsEmptyDict() then
      Ok(config.locations[name])
    else
      Err(LocationNotFound(name))
  }

  /** The value of `_locations`: a single name becomes a one-element list. */
  function NormalizeLocation(v: LocationValue): (names: seq<string>)
    ensures v.Single? ==> names == [v.name]
    ensures v.Many? ==> names == v.names
  {
    match v
    case Single(n) => [n]
    case Many(ns) => ns
  }

  /** `getProfileConfig`: the profile with `_locations` filled in. */
  function ProfileConfig(config: Config, name: string): (r: Result<ProfileData>)
    ensures r.Err? <==>
      name !in config.profiles || config.profiles[name].IsEmptyDict()
      || config.profiles[name].location.None?
    ensures r.Err? && (name !in config.profiles || config.profiles[name].IsEmptyDict())
      ==> r.error == ProfileNotFound(name)
    ensures r.Err? && name in config.profiles && !config.profiles[name].IsEmptyDict()
      ==> r.error == ProfileHasNoLocation(name)
    ensures r.Ok? ==> r.value.locations.Some? && r.value.location.Some?
    ensures r.Ok? && r.value.location.value.Single?
      ==> r.value.locations.value == [r.value.location.value.name]
    ensures r.Ok? && r.value.location.value.Many?
      ==> r.value.locations.value == r.value.location.value.names
    ensures r.Ok? ==> r.value == config.profiles[name].(locations := r.value.locations)
  {
    if name !in config.profiles || config.profiles[name].IsEmptyDict() then
      Err(ProfileNotFound(name))
    else
      var p := config.profiles[name];
      if p.location.None? then Err(ProfileHasNoLocation(name))
      else Ok(p.(locations := Some(NormalizeLocation(p.location.value))))
  }

  /** Looking a profile up again after its `_locations` key has been written
      back gives the same profile: the in-place write is idempotent. */
  lemma ProfileConfigStable(config: Config, name: string)
    requires ProfileConfig(config, name).Ok?
    ensures var p := ProfileConfig(config, name).value;
      ProfileConfig(config.(profiles := config.profiles[name := p]), name) == Ok(p)
  {
    var p := ProfileConfig(config, name).value;
    assert !p.IsEmptyDict();
  }

  /** The shared configuration object: `getProfileConfig` writes `_locations`
      into the profile dictionary it returns. */
  class ConfigStore {
    var config: Config

    constructor (c: Config)
      ensures config == c
    {
      config := c;
    }

    method GetProfileConfig(name: string) returns (r: Result<ProfileData>)
      modifies this
      ensures r == ProfileConfig(old(config), name)
      ensures r.Ok? ==> config == old(config).(profiles := old(config).profiles[name := r.value])
      ensures r.Err? ==> config == old(config)
    {
      r := ProfileConfig(config, name);
      if r.Ok? {
        config := config.(profiles := config.profiles[name := r.value]);
      }
    }
  }

  /** `fullyQualifiedPath(path, True)`: the qualified path, which must exist. */
  function QualifiedExistingPath(fs: FileSystem, path: string): (r: Result<string>)
    ensures r.Ok? <==> fs.qualify(path) in fs.existing
    ensures r.Ok? ==> r.value == fs.qualify(path)
    ensures r.Err? ==> r.error == PathDoesNotExist(fs.qualify(path))
  {
    var q := fs.qualify(path);
    if q in fs.existing then Ok(q) else Err(PathDoesNotExist(q))
  }
}

=== FILE: inclusion.dfy ===
/** The include/exclude token generator `getIncludeExcludeArgs` of
    spgill/backup/helper.py: flags of every rule set first, in a fixed sub-order
    per rule set, and the bare include paths collected and emitted last. */
module Inclusion {
  import opened Base
  import opened HelperConfig

  const FilesFrom := "--files-from"
  const FilesFromVerbatim := "--files-from-verbatim"
  const Exclude := "--exclude"
  const IExclude := "--iexclude"
  const ExcludeIfPresent := "--exclude-if-present"
  const ExcludeFile := "--exclude-file"
  const IExcludeFile := "--iexclude-file"
  const ExcludeCaches := "--exclude-caches"
  const ExcludeLargerThan := "--exclude-larger-than"

  /** Position of a flag in the per-rule-set sub-order. */
  function Rank(flag: string): nat {
    if flag == FilesFrom then 0
    else if flag == FilesFromVerbatim then 1
    else if flag == Exclude then 2
    else if flag == IExclude then 3
    else if flag == ExcludeIfPresent then 4
    else if flag == ExcludeFile then 5
    else if flag == IExcludeFile then 6
    else if flag == ExcludeCaches then 7
    else 8
  }

  const LastRank: nat := 8

  /** How many tokens a flag occupies together with its value: `--exclude-caches`
      stands alone, every other flag of the generator takes one value. */
  function UnitLength(flag: string): nat {
    if flag == ExcludeCaches then 1
    else if flag in {FilesFrom, FilesFromVerbatim, Exclude, IExclude, ExcludeIfPresent,
                     ExcludeFile, IExcludeFile, ExcludeLargerThan} then 2
    else 0
  }

  /** `t` is a run of flag units (a flag, followed by its value unless it is
      `--exclude-caches`) whose flags are in sub-order, with ranks in [lo, hi]. */
  predicate Units(t: seq<string>, lo: nat, hi: nat)
    decreases |t|
  {
    t == [] ||
    (var n := UnitLength(t[0]);
     n > 0 && |t| >= n && lo <= Rank(t[0]) <= hi && Units(t[n..], Rank(t[0]), hi))
  }

  /** `t` is a run of flag units in any order. */
  predicate WellFormed(t: seq<string>)
    decreases |t|
  {
    t == [] ||
    (var n := UnitLength(t[0]); n > 0 && |t| >= n && WellFormed(t[n..]))
  }

  lemma {:induction false} UnitsWeaken(t: seq<string>, lo: nat, lo': nat, hi: nat, hi': nat)
    requires lo' <= lo && hi <= hi' && Units(t, lo, hi)
    ensures Units(t, lo', hi')
    decreases |t|
  {
    if t != [] {
      UnitsWeaken(t[UnitLength(t[0])..], Rank(t[0]), Rank(t[0]), hi, hi');
    }
  }

  lemma {:induction false} UnitsAppend(a: seq<string>, b: seq<string>, lo: nat, mid: nat, hi: nat)
    requires lo <= mid <= hi
    requires Units(a, lo, mid) && Units(b, mid, hi)
    ensures Units(a + b, lo, hi)
    decreases |a|
  {
    if a == [] {
      assert a + b == b;
      UnitsWeaken(b, mid, lo, hi, hi);
    } else {
      var n := UnitLength(a[0]);
      assert (a + b)[0] == a[0];
      assert (a + b)[n..] == a[n..] + b;
      UnitsAppend(a[n..], b, Rank(a[0]), mid, hi);
      assert Units((a + b)[n..], Rank(a[0]), hi);
    }
  }

  lemma {:induction false} UnitsWellFormed(t: seq<string>, lo: nat, hi: nat)
    requires Units(t, lo, hi)
    ensures WellFormed(t)
    decreases |t|
  {
    if t != [] {
      UnitsWellFormed(t[UnitLength(t[0])..], Rank(t[0]), hi);
    }
  }

  lemma {:induction false} WellFormedAppend(a: seq<string>, b: seq<string>)
    requires WellFormed(a) && WellFormed(b)
    ensures WellFormed(a + b)
    decreases |a|
  {
    if a == [] {
      assert a + b == b;
    } else {
      var n := UnitLength(a[0]);
      assert (a + b)[n..] == a[n..] + b;
      WellFormedAppend(a[n..], b);
    }
  }

  function Entries(o: Option<seq<string>>): seq<string> {
    o.GetOr([])
  }

  // ---- specification of the generator ----

  /** `for entry in entries: yield flag; yield entry`. */
  function FlagPairs(flag: string, entries: seq<string>): seq<string>
    decreases |entries|
  {
    if entries == [] then []
    else FlagPairs(flag, entries[..|entries| - 1]) + [flag, entries[|entries| - 1]]
  }

  /** The same for path entries, each qualified and required to exist. */
  function PathFlagPairs(flag: string, entries: seq<string>, fs: FileSystem): Result<seq<string>>
    decreases |entries|
  {
    if entries == [] then Ok([])
    else
      var prefix :- PathFlagPairs(flag, entries[..|entries| - 1], fs);
      var path :- QualifiedExistingPath(fs, entries[|entries| - 1]);
      Ok(prefix + [flag, path])
  }

  /** `excludeLargerThan`: skipped when false in a condition (absent, "" or 0);
      any other number is the type error the tool reports. */
  function SizeArgs(v: Option<Scalar>): Result<seq<string>> {
    match v
    case None => Ok([])
    case Some(Text(s)) => if s == "" then Ok([]) else Ok([ExcludeLargerThan, s])
    case Some(Number(n)) => if n == 0 then Ok([]) else Err(SizeNotString)
  }

  /** One `for` loop of the generator: a flag repeated for each entry of one
      key; path entries are qualified and must exist. */
  datatype Loop = Loop(flag: string, entries: seq<string>, paths: bool)

  /** The generator's loops over one rule set, in the order it runs them. */
  function Loops(g: SourceData): seq<Loop> {
    [Loop(FilesFrom, Entries(g.includeFilesFrom), true),
     Loop(FilesFromVerbatim, Entries(g.includeFilesFromVerbatim), true),
     Loop(Exclude, Entries(g.exclude), false),
     Loop(IExclude, Entries(g.iexclude), false),
     Loop(ExcludeIfPresent, Entries(g.excludeIfPresent), false),
     Loop(ExcludeFile, Entries(g.excludeFile), true),
     Loop(IExcludeFile, Entries(g.iexcludeFile), true)]
  }

  function LoopFlags(loop: Loop, fs: FileSystem): Result<seq<string>> {
    if loop.paths then PathFlagPairs(loop.flag, loop.entries, fs)
    else Ok(FlagPairs(loop.flag, loop.entries))
  }

  /** The loops run one after another; the first failure wins. */
  function LoopsFlags(loops: seq<Loop>, fs: FileSystem): Result<seq<string>>
    decreases |loops|
  {
    if loops == [] then Ok([])
    else
      var prefix :- LoopsFlags(loops[..|loops| - 1], fs);
      var last :- LoopFlags(loops[|loops| - 1], fs);
      Ok(prefix + last)
  }

  /** The flags one rule set contributes: its loops, then `--exclude-caches`,
      then the size limit. */
  function GroupFlags(g: SourceData, fs: FileSystem): Result<seq<string>> {
    var listed :- LoopsFlags(Loops(g), fs);
    var caches := if g.excludeCaches.GetOr(false) then [ExcludeCaches] else [];
    var size :- SizeArgs(g.excludeLargerThan);
    Ok(listed + caches + size)
  }

  /** The flags of a list of rule sets, in order; the first failure wins. */
  function AllFlags(groups: seq<SourceData>, fs: FileSystem): Result<seq<string>>
    decreases |groups|
  {
    if groups == [] then Ok([])
    else
      var prefix :- AllFlags(groups[..|groups| - 1], fs);
      var last :- GroupFlags(groups[|groups| - 1], fs);
      Ok(prefix + last)
  }

  /** The bare include entries of a list of rule sets, in order. */
  function AllIncludes(groups: seq<SourceData>): seq<string>
    decreases |groups|
  {
    if groups == [] then []
    else AllIncludes(groups[..|groups| - 1]) + Entries(groups[|groups| - 1].bareInclude)
  }

  /** The values of an ordered group map. */
  function GroupValues(groups: seq<(string, SourceData)>): (vs: seq<SourceData>)
    ensures |vs| == |groups|
    ensures forall i :: 0 <= i < |groups| ==> vs[i] == groups[i].1
  {
    if groups == [] then [] else [groups[0].1] + GroupValues(groups[1..])
  }

  /** The groups whose name is in `selected`, in the map's order. */
  function FilterGroups(groups: seq<(string, SourceData)>, selected: seq<string>): seq<SourceData>
  {
    if groups == [] then []
    else (if groups[0].0 in selected then [groups[0].1] else []) + FilterGroups(groups[1..], selected)
  }

  /** An empty selection means every group. */
  function SelectGroups(groups: seq<(string, SourceData)>, selected: seq<string>): seq<SourceData> {
    if selected == [] then GroupValues(groups) else FilterGroups(groups, selected)
  }

  /** `finalGroups`: the global profile (or an empty one), the profile itself,
      then the selected groups. */
  function FinalGroups(config: Config, profile: ProfileData, selected: seq<string>): seq<SourceData> {
    [config.globalProfile.GetOr(EmptySource), profile.source]
      + SelectGroups(profile.groups.GetOr([]), selected)
  }

  /** Everything `getIncludeExcludeArgs` yields, or the error that stops it. */
  function InclusionArgs(config: Config, profileName: string, selected: seq<string>, fs: FileSystem)
    : Result<seq<string>>
  {
    var profile :- ProfileConfig(config, profileName);
    var groups := FinalGroups(config, profile, selected);
    var flags :- AllFlags(groups, fs);
    Ok(flags + AllIncludes(groups))
  }

  // ---- the generator itself ----

  method EmitPairs(flag: string, entries: seq<string>) returns (out: seq<string>)
    ensures out == FlagPairs(flag, entries)
  {
    out := [];
    var j := 0;
    while j < |entries|
      invariant 0 <= j <= |entries|
      invariant out == FlagPairs(flag, entries[..j])
    {
      assert entries[..j + 1][..j] == entries[..j];
      out := out + [flag, entries[j]];
      j := j + 1;
    }
    assert entries[..j] == entries;
  }

  method EmitPathPairs(flag: string, entries: seq<string>, fs: FileSystem) returns (r: Result<seq<string>>)
    ensures r == PathFlagPairs(flag, entries, fs)
  {
    var out := [];
    var j := 0;
    while j < |entries|
      invariant 0 <= j <= |entries|
      invariant PathFlagPairs(flag, entries[..j], fs) == Ok(out)
    {
      assert entries[..j + 1][..j] == entries[..j];
      var path := QualifiedExistingPath(fs, entries[j]);
      if path.Err? {
        assert PathFlagPairs(flag, entries[..j + 1], fs) == Err(path.error);
        PathErrorPersists(flag, entries, j + 1, fs);
        assert entries[..|entries|] == entries;
        return Err(path.error);
      }
      out := out + [flag, path.value];
      j := j + 1;
    }
    assert entries[..j] == entries;
    r := Ok(out);
  }

  /** Once a path is missing, longer entry lists fail with the same error. */
  lemma {:induction false} PathErrorPersists(flag: string, entries: seq<string>, k: nat, fs: FileSystem)
    requires k <= |entries|
    requires PathFlagPairs(flag, entries[..k], fs).Err?
    ensures PathFlagPairs(flag, entries, fs) == PathFlagPairs(flag, entries[..k], fs)
    decreases |entries| - k
  {
    if k < |entries| {
      assert entries[..k + 1][..k] == entries[..k];
      PathErrorPersists(flag, entries, k + 1, fs);
    } else {
      assert entries[..k] == entries;
    }
  }

  /** The generator's per-key loops over one rule set, in order; the first
      missing path ends them. */
  method EmitLoops(loops: seq<Loop>, fs: FileSystem) returns (r: Result<seq<string>>)
    ensures r == LoopsFlags(loops, fs)
  {
    var out: seq<string> := [];
    var i := 0;
    while i < |loops|
      invariant 0 <= i <= |loops|
      invariant LoopsFlags(loops[..i], fs) == Ok(out)
    {
      assert loops[..i + 1][..i] == loops[..i];
      var loop := loops[i];
      var emitted: seq<string>;
      if loop.paths {
        var pairs := EmitPathPairs(loop.flag, loop.entries, fs);
        if pairs.Err? {
          LoopsErrorPersists(loops, i + 1, fs);
          assert loops[..|loops|] == loops;
          return Err(pairs.error);
        }
        emitted := pairs.value;
      } else {
        emitted := EmitPairs(loop.flag, loop.entries);
      }
      out := out + emitted;
      i := i + 1;
    }
    assert loops[..i] == loops;
    r := Ok(out);
  }

  /** One rule set's share of the generator: its loops, `--exclude-caches`,
      then the size limit. */
  method EmitGroup(g: SourceData, fs: FileSystem) returns (r: Result<seq<string>>)
    ensures r == GroupFlags(g, fs)
  {
    var listed := EmitLoops(Loops(g), fs);
    if listed.Err? {
      return Err(listed.error);
    }
    var out := listed.value;
    var caches: seq<string> := [];
    if g.excludeCaches.GetOr(false) {
      caches := [ExcludeCaches];
    }
    out := out + caches;
    ghost var flags := out;
    match g.excludeLargerThan {
      case None =>
      case Some(Text(s)) =>
        if s != "" { out := out + [ExcludeLargerThan, s]; }
      case Some(Number(n)) =>
        if n != 0 { return Err(SizeNotString); }
    }
    assert out == flags + SizeArgs(g.excludeLargerThan).value;
    r := Ok(out);
  }

  /** Once a loop fails, the rule set fails with that error. */
  lemma {:induction false} LoopsErrorPersists(loops: seq<Loop>, k: nat, fs: FileSystem)
    requires k <= |loops|
    requires LoopsFlags(loops[..k], fs).Err?
    ensures LoopsFlags(loops, fs) == LoopsFlags(loops[..k], fs)
    decreases |loops| - k
  {
    if k < |loops| {
      assert loops[..k + 1][..k] == loops[..k];
      LoopsErrorPersists(loops, k + 1, fs);
    } else {
      assert loops[..k] == loops;
    }
  }

  /** Appends the entries one by one (`list.append` in a loop, or `yield`). */
  method Extend(xs: seq<string>, entries: seq<string>) returns (ys: seq<string>)
    ensures ys == xs + entries
  {
    ys := xs;
    var j := 0;
    while j < |entries|
      invariant 0 <= j <= |entries|
      invariant ys == xs + entries[..j]
    {
      assert entries[..j + 1] == entries[..j] + [entries[j]];
      ys := ys + [entries[j]];
      j := j + 1;
    }
    assert entries[..j] == entries;
  }

  /** `getIncludeExcludeArgs`: walks the rule sets, yielding flags and
      collecting bare includes, then yields the collected includes. */
  method IncludeExcludeArgs(config: Config, profileName: string, selected: seq<string>, fs: FileSystem)
    returns (r: Result<seq<string>>)
    ensures r == InclusionArgs(config, profileName, selected, fs)
  {
    var found := ProfileConfig(config, profileName);
    if found.Err? { return Err(found.error); }
    var groups := FinalGroups(config, found.value, selected);
    var includeList: seq<string> := [];
    var tokens: seq<string> := [];
    var i := 0;
    while i < |groups|
      invariant 0 <= i <= |groups|
      invariant AllFlags(groups[..i], fs) == Ok(tokens)
      invariant includeList == AllIncludes(groups[..i])
    {
      AllStep(groups, i, fs);
      includeList := Extend(includeList, Entries(groups[i].bareInclude));
      var flags := EmitGroup(groups[i], fs);
      if flags.Err? {
        AllFlagsErrorPersists(groups, i + 1, fs);
        assert groups[..|groups|] == groups;
        return Err(flags.error);
      }
      tokens := tokens + flags.value;
      i := i + 1;
    }
    assert groups[..i] == groups;
    tokens := Extend(tokens, includeList);
    r := Ok(tokens);
  }

  /** One more rule set appends its flags and its bare includes. */
  lemma AllStep(groups: seq<SourceData>, i: nat, fs: FileSystem)
    requires i < |groups|
    ensures AllIncludes(groups[..i + 1]) == AllIncludes(groups[..i]) + Entries(groups[i].bareInclude)
    ensures AllFlags(groups[..i + 1], fs)
         == (var before :- AllFlags(groups[..i], fs);
             var last :- GroupFlags(groups[i], fs);
             Ok(before + last))
  {
    assert groups[..i + 1][..i] == groups[..i];
    assert groups[..i + 1][i] == groups[i];
  }

  /** Once a rule set fails, the whole generator fails with that error. */
  lemma {:induction false} AllFlagsErrorPersists(groups: seq<SourceData>, k: nat, fs: FileSystem)
    requires k <= |groups|
    requires AllFlags(groups[..k], fs).Err?
    ensures AllFlags(groups, fs) == AllFlags(groups[..k], fs)
    decreases |groups| - k
  {
    if k < |groups| {
      assert groups[..k + 1][..k] == groups[..k];
      AllFlagsErrorPersists(groups, k + 1, fs);
    } else {
      assert groups[..k] == groups;
    }
  }

  // ---- properties ----

  lemma {:induction false} FlagPairsUnits(flag: string, entries: seq<string>)
    requires UnitLength(flag) == 2
    ensures Units(FlagPairs(flag, entries), Rank(flag), Rank(flag))
    decreases |entries|
  {
    if entries != [] {
      var n := |entries| - 1;
      FlagPairsUnits(flag, entries[..n]);
      var unit := [flag, entries[n]];
      assert unit[2..] == [];
      UnitsAppend(FlagPairs(flag, entries[..n]), unit, Rank(flag), Rank(flag), Rank(flag));
    }
  }

  lemma {:induction false} PathFlagPairsUnits(flag: string, entries: seq<string>, fs: FileSystem)
    requires UnitLength(flag) == 2
    requires PathFlagPairs(flag, entries, fs).Ok?
    ensures Units(PathFlagPairs(flag, entries, fs).value, Rank(flag), Rank(flag))
    decreases |entries|
  {
    if entries != [] {
      var n := |entries| - 1;
      PathFlagPairsUnits(flag, entries[..n], fs);
      var unit := [flag, QualifiedExistingPath(fs, entries[n]).value];
      assert unit[2..] == [];
      UnitsAppend(PathFlagPairs(flag, entries[..n], fs).value, unit, Rank(flag), Rank(flag), Rank(flag));
    }
  }

  /** Within one rule set every flag but `--exclude-caches` is followed by its
      value, and the flags come in the fixed order files-from, files-from-verbatim,
      exclude, iexclude, exclude-if-present, exclude-file, iexclude-file,
      exclude-caches, exclude-larger-than. */
  lemma GroupSubOrder(g: SourceData, fs: FileSystem)
    requires GroupFlags(g, fs).Ok?
    ensures Units(GroupFlags(g, fs).value, 0, LastRank)
  {
    var loops := Loops(g);
    var listed := LoopsFlags(loops, fs).value;
    var caches: seq<string> := if g.excludeCaches.GetOr(false) then [ExcludeCaches] else [];
    var size := SizeArgs(g.excludeLargerThan).value;
    assert GroupFlags(g, fs).value == listed + caches + size;
    LoopsRanked(g);
    LoopsUnits(loops, fs, 0, 6);
    UnitsWeaken(listed, 0, 0, 6, 7);
    assert Units(caches, 7, 7) by {
      if caches != [] { assert caches[1..] == []; }
    }
    UnitsAppend(listed, caches, 0, 7, 7);
    UnitsWeaken(listed + caches, 0, 0, 7, 8);
    assert Units(size, 8, 8) by {
      if size != [] { assert size[2..] == []; }
    }
    UnitsAppend(listed + caches, size, 0, 8, 8);
  }

  /** The seven listed loops are paired flags of ranks 0 to 6, in rank order. */
  lemma LoopsRanked(g: SourceData)
    ensures var loops := Loops(g);
      (forall i :: 0 <= i < |loops| ==> UnitLength(loops[i].flag) == 2)
      && (forall i :: 0 <= i < |loops| ==> 0 <= Rank(loops[i].flag) <= 6)
      && (forall i, j :: 0 <= i < j < |loops| ==> Rank(loops[i].flag) <= Rank(loops[j].flag))
  {
    var loops := Loops(g);
    assert forall i :: 0 <= i < |loops| ==> Rank(loops[i].flag) == i;
  }

  /** Loops over paired flags in rank order produce a sorted run of units. */
  lemma {:induction false} LoopsUnits(loops: seq<Loop>, fs: FileSystem, lo: nat, hi: nat)
    requires LoopsFlags(loops, fs).Ok?
    requires forall i :: 0 <= i < |loops| ==> UnitLength(loops[i].flag) == 2
    requires forall i :: 0 <= i < |loops| ==> lo <= Rank(loops[i].flag) <= hi
    requires forall i, j :: 0 <= i < j < |loops| ==> Rank(loops[i].flag) <= Rank(loops[j].flag)
    ensures Units(LoopsFlags(loops, fs).value, lo, hi)
    decreases |loops|
  {
    if loops != [] {
      var n := |loops| - 1;
      var last := loops[n];
      var r := Rank(last.flag);
      var prefix := loops[..n];
      assert forall i :: 0 <= i < |prefix| ==> prefix[i] == loops[i];
      LoopsUnits(prefix, fs, lo, r);
      if last.paths {
        PathFlagPairsUnits(last.flag, last.entries, fs);
      } else {
        FlagPairsUnits(last.flag, last.entries);
      }
      UnitsAppend(LoopsFlags(prefix, fs).value, LoopFlags(last, fs).value, lo, r, r);
      UnitsWeaken(LoopsFlags(loops, fs).value, lo, lo, r, hi);
    }
  }

  /** The flags of all rule sets together still form whole flag units. */
  lemma {:induction false} AllFlagsWellFormed(groups: seq<SourceData>, fs: FileSystem)
    requires AllFlags(groups, fs).Ok?
    ensures WellFormed(AllFlags(groups, fs).value)
    decreases |groups|
  {
    if groups != [] {
      var n := |groups| - 1;
      AllFlagsWellFormed(groups[..n], fs);
      GroupSubOrder(groups[n], fs);
      UnitsWellFormed(GroupFlags(groups[n], fs).value, 0, LastRank);
      WellFormedAppend(AllFlags(groups[..n], fs).value, GroupFlags(groups[n], fs).value);
    }
  }

  /** The generator's output is whole flag units followed by every bare include
      entry of every rule set, in rule-set order. */
  lemma IncludesLast(config: Config, profileName: string, selected: seq<string>, fs: FileSystem)
    requires InclusionArgs(config, profileName, selected, fs).Ok?
    ensures var groups := FinalGroups(config, ProfileConfig(config, profileName).value, selected);
      AllFlags(groups, fs).Ok?
      && InclusionArgs(config, profileName, selected, fs).value
         == AllFlags(groups, fs).value + AllIncludes(groups)
      && WellFormed(AllFlags(groups, fs).value)
  {
    var groups := FinalGroups(config, ProfileConfig(config, profileName).value, selected);
    AllFlagsWellFormed(groups, fs);
  }

  /** The generator fails exactly when one of the rule sets fails, and then with
      the error of the first rule set that fails. */
  lemma {:induction false} FirstFailureWins(groups: seq<SourceData>, fs: FileSystem)
    ensures AllFlags(groups, fs).Err? <==> exists k :: 0 <= k < |groups| && GroupFlags(groups[k], fs).Err?
    ensures AllFlags(groups, fs).Err? ==>
      exists k :: 0 <= k < |groups| && GroupFlags(groups[k], fs) == AllFlags(groups, fs)
        && forall j :: 0 <= j < k ==> GroupFlags(groups[j], fs).Ok?
    decreases |groups|
  {
    if groups != [] {
      var n := |groups| - 1;
      var prefix := groups[..n];
      FirstFailureWins(prefix, fs);
      assert forall j :: 0 <= j < n ==> prefix[j] == groups[j];
      if AllFlags(prefix, fs).Err? {
        var k :| 0 <= k < |prefix| && GroupFlags(prefix[k], fs) == AllFlags(prefix, fs)
          && forall j :: 0 <= j < k ==> GroupFlags(prefix[j], fs).Ok?;
        assert GroupFlags(groups[k], fs) == AllFlags(groups, fs);
      } else if GroupFlags(groups[n], fs).Err? {
        assert GroupFlags(groups[n], fs) == AllFlags(groups, fs);
      } else {
        assert forall k :: 0 <= k < |groups| ==> GroupFlags(groups[k], fs).Ok? by {
          forall k | 0 <= k < |groups| ensures GroupFlags(groups[k], fs).Ok? {
            if k < n { assert groups[k] == prefix[k]; }
          }
        }
      }
    }
  }

  /** A non-zero number as `excludeLargerThan` makes its rule set fail: with the
      type error, unless one of its paths was already missing. */
  lemma SizeMustBeString(g: SourceData, fs: FileSystem, n: int)
    requires g.excludeLargerThan == Some(Number(n)) && n != 0
    ensures GroupFlags(g, fs).Err?
    ensures GroupFlags(g, fs).error == SizeNotString || GroupFlags(g, fs).error.PathDoesNotExist?
  {
    LoopsErrorIsPath(Loops(g), fs);
  }

  lemma {:induction false} PathErrorIsPath(flag: string, entries: seq<string>, fs: FileSystem)
    ensures PathFlagPairs(flag, entries, fs).Err? ==> PathFlagPairs(flag, entries, fs).error.PathDoesNotExist?
    decreases |entries|
  {
    if entries != [] {
      PathErrorIsPath(flag, entries[..|entries| - 1], fs);
    }
  }

  /** The loops of a rule set fail only on a missing path. */
  lemma {:induction false} LoopsErrorIsPath(loops: seq<Loop>, fs: FileSystem)
    ensures LoopsFlags(loops, fs).Err? ==> LoopsFlags(loops, fs).error.PathDoesNotExist?
    decreases |loops|
  {
    if loops != [] {
      var last := loops[|loops| - 1];
      LoopsErrorIsPath(loops[..|loops| - 1], fs);
      PathErrorIsPath(last.flag, last.entries, fs);
    }
  }

  /** Naming groups selects them, in the order of the group map, and nothing else. */
  lemma {:induction false} FilterGroupsMembers(groups: seq<(string, SourceData)>, selected: seq<string>)
    ensures forall i :: 0 <= i < |groups| && groups[i].0 in selected ==> groups[i].1 in FilterGroups(groups, selected)
    ensures forall v :: v in FilterGroups(groups, selected) ==>
      exists i :: 0 <= i < |groups| && groups[i].0 in selected && groups[i].1 == v
    decreases |groups|
  {
    if groups != [] {
      FilterGroupsMembers(groups[1..], selected);
      forall i | 0 <= i < |groups| && groups[i].0 in selected
        ensures groups[i].1 in FilterGroups(groups, selected)
      {
        if i > 0 { assert groups[1..][i - 1] == groups[i]; }
      }
      forall v | v in FilterGroups(groups, selected)
        ensures exists i :: 0 <= i < |groups| && groups[i].0 in selected && groups[i].1 == v
      {
        if v in FilterGroups(groups[1..], selected) {
          var i :| 0 <= i < |groups[1..]| && groups[1..][i].0 in selected && groups[1..][i].1 == v;
          assert groups[i + 1] == groups[1..][i];
        } else {
          assert groups[0].0 in selected && groups[0].1 == v;
        }
      }
    }
  }

  predicate Unknown(groups: seq<(string, SourceData)>, name: string) {
    forall i :: 0 <= i < |groups| ==> groups[i].0 != name
  }

  /** Names that are not groups of the profile do not change the selection. */
  lemma {:induction false} UnknownNamesIgnored(groups: seq<(string, SourceData)>, selected: seq<string>, extra: seq<string>)
    requires forall x :: x in extra ==> Unknown(groups, x)
    ensures FilterGroups(groups, selected + extra) == FilterGroups(groups, selected)
    decreases |groups|
  {
    if groups != [] {
      assert groups[0].0 in selected + extra <==> groups[0].0 in selected by {
        assert !Unknown(groups, groups[0].0);
      }
      forall x | x in extra ensures Unknown(groups[1..], x) {
        assert Unknown(groups, x);
        forall i | 0 <= i < |groups[1..]| ensures groups[1..][i].0 != x {
          assert groups[1..][i] == groups[i + 1];
        }
      }
      UnknownNamesIgnored(groups[1..], selected, extra);
    }
  }

  /** A selection made only of unknown names selects no group at all (it does
      not fall back to "every group"). */
  lemma OnlyUnknownSelectsNothing(groups: seq<(string, SourceData)>, selected: seq<string>)
    requires selected != []
    requires forall x :: x in selected ==> Unknown(groups, x)
    ensures SelectGroups(groups, selected) == []
  {
    var empty: seq<string> := [];
    assert empty + selected == selected;
    UnknownNamesIgnored(groups, empty, selected);
    NothingSelected(groups);
  }

  lemma {:induction false} NothingSelected(groups: seq<(string, SourceData)>)
    ensures FilterGroups(groups, []) == []
    decreases |groups|
  {
    if groups != [] {
      NothingSelected(groups[1..]);
    }
  }
}

=== FILE: legacy.dfy ===
/** The older command line of spgill/backup/__init__.py, which works on the
    loaded configuration dictionary directly: `run`, which gathers the rules of
    every group into the profile's own lists and builds one restic command, and
    `dump`, which resolves its settings and then runs the archive loop. */
module Legacy {
  import opened Base
  import Inclusion
  import Archive

  /** A group of a legacy profile: optional include and exclude lists. */
  datatype GroupDict = GroupDict(includeList: Option<seq<string>>, excludeList: Option<seq<string>>)

  /** A profile of the legacy configuration. It is a class because `run`
      extends the profile's own include and exclude lists in place. */
  class ProfileDict {
    var repo: string
    var includeList: Option<seq<string>>
    var excludeList: Option<seq<string>>
    var groups: seq<(string, GroupDict)>
    var tags: Option<seq<string>>
    var args: Option<seq<string>>

    constructor (repo: string, included: Option<seq<string>>, excluded: Option<seq<string>>,
                 groups: seq<(string, GroupDict)>, tags: Option<seq<string>>, args: Option<seq<string>>)
      ensures this.repo == repo && this.includeList == included && this.excludeList == excluded
      ensures this.groups == groups && this.tags == tags && this.args == args
    {
      this.repo := repo;
      this.includeList := included;
      this.excludeList := excluded;
      this.groups := groups;
      this.tags := tags;
      this.args := args;
    }

    /** The first half of `cli_run`: the profile's lists (or fresh empty ones
        when the key is absent) are extended with every group's lists in
        order. A list the profile has is the one extended, so the profile
        itself ends up holding the merged list. */
    method MergeGroups() returns (included: seq<string>, excluded: seq<string>)
      modifies this
      ensures included == old(this.includeList).GetOr([]) + Gathered(old(groups), true)
      ensures excluded == old(this.excludeList).GetOr([]) + Gathered(old(groups), false)
      ensures this.includeList == if old(this.includeList).Some? then Some(included) else None
      ensures this.excludeList == if old(this.excludeList).Some? then Some(excluded) else None
      ensures repo == old(repo) && groups == old(groups) && tags == old(tags) && args == old(args)
    {
      included := this.includeList.GetOr([]);
      excluded := this.excludeList.GetOr([]);
      var gs := groups;
      var i := 0;
      while i < |gs|
        invariant 0 <= i <= |gs|
        invariant included == old(this.includeList).GetOr([]) + Gathered(gs[..i], true)
        invariant excluded == old(this.excludeList).GetOr([]) + Gathered(gs[..i], false)
        invariant this.includeList == if old(this.includeList).Some? then Some(included) else None
        invariant this.excludeList == if old(this.excludeList).Some? then Some(excluded) else None
        invariant repo == old(repo) && groups == gs && tags == old(tags) && args == old(args)
      {
        GatheredStep(gs, i, true);
        GatheredStep(gs, i, false);
        included := included + Picked(gs[i].1, true);
        excluded := excluded + Picked(gs[i].1, false);
        if this.includeList.Some? {
          this.includeList := Some(included);
        }
        if this.excludeList.Some? {
          this.excludeList := Some(excluded);
        }
        i := i + 1;
      }
      assert gs[..i] == gs;
    }
  }

  /** A group's include list (`includes`) or exclude list, empty when absent. */
  function Picked(g: GroupDict, includes: bool): seq<string> {
    if includes then g.includeList.GetOr([]) else g.excludeList.GetOr([])
  }

  /** The lists of all groups, concatenated in order. */
  function Gathered(groups: seq<(string, GroupDict)>, includes: bool): seq<string>
    decreases |groups|
  {
    if groups == [] then []
    else Gathered(groups[..|groups| - 1], includes) + Picked(groups[|groups| - 1].1, includes)
  }

  lemma GatheredStep(groups: seq<(string, GroupDict)>, i: nat, includes: bool)
    requires i < |groups|
    ensures Gathered(groups[..i + 1], includes) == Gathered(groups[..i], includes) + Picked(groups[i].1, includes)
  {
    assert groups[..i + 1][..i] == groups[..i];
  }

  /** A pattern is among the ones the groups contribute exactly when one of
      the groups lists it. */
  lemma {:induction false} GatheredMembers(groups: seq<(string, GroupDict)>, includes: bool, x: string)
    ensures x in Gathered(groups, includes) <==> exists i :: 0 <= i < |groups| && x in Picked(groups[i].1, includes)
    decreases |groups|
  {
    if groups != [] {
      var n := |groups| - 1;
      GatheredMembers(groups[..n], includes, x);
      if x in Gathered(groups, includes) && x !in Picked(groups[n].1, includes) {
        var i :| 0 <= i < n && x in Picked(groups[..n][i].1, includes);
        assert groups[..n][i] == groups[i];
      }
      if exists i :: 0 <= i < |groups| && x in Picked(groups[i].1, includes) {
        var i :| 0 <= i < |groups| && x in Picked(groups[i].1, includes);
        if i < n {
          assert groups[..n][i] == groups[i];
        }
      }
    }
  }

  /** The wrappers in front of restic: `ionice -c 3`, then `nice -10`. */
  function CommandPrefix(ionice: bool, nice: bool): (p: seq<string>)
    ensures |p| == (if ionice then 3 else 0) + (if nice then 2 else 0)
    ensures ionice ==> p[..3] == ["ionice", "-c", "3"]
    ensures nice ==> p[|p| - 2..] == ["nice", "-10"]
  {
    (if ionice then ["ionice", "-c", "3"] else []) + (if nice then ["nice", "-10"] else [])
  }

  /** The whole command line of `cli_run`. */
  function RunArgs(ionice: bool, nice: bool, baseArgs: seq<string>, tags: seq<string>, excluded: seq<string>,
                   included: seq<string>, extra: seq<string>): seq<string>
  {
    CommandPrefix(ionice, nice) + baseArgs + ["backup"] + Inclusion.FlagPairs("--tag", tags)
    + Inclusion.FlagPairs("--exclude", excluded) + included + extra
  }

  /** `flag` before every entry, in order. */
  lemma {:induction false} FlagPairsIndex(flag: string, entries: seq<string>)
    ensures var r := Inclusion.FlagPairs(flag, entries);
      |r| == 2 * |entries| && forall k :: 0 <= k < |entries| ==> r[2 * k] == flag && r[2 * k + 1] == entries[k]
    decreases |entries|
  {
    if entries != [] {
      FlagPairsIndex(flag, entries[..|entries| - 1]);
    }
  }

  /** The layout of the `run` command: the wrappers, the repository
      arguments, "backup", the `--tag` pairs, the `--exclude` pairs, then the
      include paths and the profile's own arguments. `PairsAt` reads a run of
      pairs entry by entry. */
  lemma RunLayout(ionice: bool, nice: bool, baseArgs: seq<string>, tags: seq<string>, excluded: seq<string>,
                  included: seq<string>, extra: seq<string>)
    ensures var r := RunArgs(ionice, nice, baseArgs, tags, excluded, included, extra);
      var p := CommandPrefix(ionice, nice);
      var tp := Inclusion.FlagPairs("--tag", tags);
      var ep := Inclusion.FlagPairs("--exclude", excluded);
      var b := |p| + |baseArgs|;
      var e := b + 1 + |tp|;
      |tp| == 2 * |tags| && |ep| == 2 * |excluded| && |r| == e + |ep| + |included| + |extra|
      && r[..|p|] == p && r[|p|..b] == baseArgs && r[b] == "backup"
      && r[b + 1..e] == tp && r[e..e + |ep|] == ep && r[e + |ep|..] == included + extra
  {
    var p := CommandPrefix(ionice, nice);
    var tp := Inclusion.FlagPairs("--tag", tags);
    var ep := Inclusion.FlagPairs("--exclude", excluded);
    FlagPairsIndex("--tag", tags);
    FlagPairsIndex("--exclude", excluded);
    RunSlices(p, baseArgs, tp, ep, included, extra);
  }

  /** A run of flag pairs found at offset `s` of a longer command line. */
  lemma PairsAt(r: seq<string>, s: nat, flag: string, entries: seq<string>)
    requires s + 2 * |entries| <= |r| && r[s..s + 2 * |entries|] == Inclusion.FlagPairs(flag, entries)
    ensures forall k :: 0 <= k < |entries| ==> r[s + 2 * k] == flag && r[s + 2 * k + 1] == entries[k]
  {
    FlagPairsIndex(flag, entries);
    forall k | 0 <= k < |entries| ensures r[s + 2 * k] == flag && r[s + 2 * k + 1] == entries[k] {
      assert r[s + 2 * k] == r[s..s + 2 * |entries|][2 * k];
      assert r[s + 2 * k + 1] == r[s..s + 2 * |entries|][2 * k + 1];
    }
  }

  lemma RunSlices(p: seq<string>, base: seq<string>, tp: seq<string>, ep: seq<string>, inc: seq<string>,
                  extra: seq<string>)
    ensures var r := p + base + ["backup"] + tp + ep + inc + extra;
      var b := |p| + |base|;
      var e := b + 1 + |tp|;
      |r| == e + |ep| + |inc| + |extra|
      && r[..|p|] == p && r[|p|..b] == base && r[b] == "backup"
      && r[b + 1..e] == tp && r[e..e + |ep|] == ep && r[e + |ep|..] == inc + extra
  {
    var head := p + base + ["backup"];
    var r := p + base + ["backup"] + tp + ep + inc + extra;
    assert r == head + (tp + (ep + (inc + extra)));
    assert r[..|head|] == head;
    assert head[..|p|] == p && head[|p|..|p| + |base|] == base;
  }

  /** What `cli_run` did: the command line, whether it ran it (otherwise it
      printed it), and the dry-run warning. */
  datatype RunOutcome = RunOutcome(args: seq<string>, executed: bool, warning: Option<Warning>)

  /** `cli_run`, for a profile already looked up and the repository arguments
      of that profile. */
  method CliRun(p: ProfileDict, baseArgs: seq<string>, ionice: bool, nice: bool, go: bool)
    returns (out: RunOutcome)
    modifies p
    ensures out.args == RunArgs(ionice, nice, baseArgs, old(p.tags).GetOr([]),
                                old(p.excludeList).GetOr([]) + Gathered(old(p.groups), false),
                                old(p.includeList).GetOr([]) + Gathered(old(p.groups), true),
                                old(p.args).GetOr([]))
    ensures out.executed == go
    ensures out.warning == if go then None else Some(DryRunMode)
    ensures p.includeList == if old(p.includeList).Some? then Some(old(p.includeList).value + Gathered(old(p.groups), true))
                         else None
    ensures p.excludeList == if old(p.excludeList).Some? then Some(old(p.excludeList).value + Gathered(old(p.groups), false))
                         else None
    ensures p.repo == old(p.repo) && p.tags == old(p.tags) && p.args == old(p.args) && p.groups == old(p.groups)
  {
    var warning := if go then None else Some(DryRunMode);
    var included, excluded := p.MergeGroups();
    var args: seq<string> := [];
    if ionice {
      args := args + ["ionice", "-c", "3"];
    }
    if nice {
      args := args + ["nice", "-10"];
    }
    assert args == CommandPrefix(ionice, nice);
    args := args + baseArgs + ["backup"] + Inclusion.FlagPairs("--tag", p.tags.GetOr([]))
      + Inclusion.FlagPairs("--exclude", excluded) + included + p.args.GetOr([]);
    out := RunOutcome(args, go, warning);
  }

  // ---- `dump` ----

  /** The `dump` section; it counts as missing when it has neither key. */
  datatype DumpConfig = DumpConfig(cache: Option<string>, passwordFile: Option<string>)

  /** The parts of the legacy configuration `dump` reads. */
  datatype LegacyConfig = LegacyConfig(profiles: map<string, ProfileDict>, dump: Option<DumpConfig>)

  /** Everything `cli_dump` resolves before its loop. `repoArgs` are the
      repository arguments of the profile, `expand` is `expanduser`,
      `existing` the paths that exist and `baseName` the last component of a
      path. The dump is always encrypted, with the configured password file. */
  function DumpJob(config: LegacyConfig, destination: string, profile: string, repoArgs: seq<string>,
                   expand: string -> string, existing: set<string>, baseName: string -> string)
    : (r: Result<Archive.Job>)
    reads config.profiles.Values
    ensures profile !in config.profiles ==> r == Err(ProfileNotFound(profile))
    ensures profile in config.profiles && (config.dump.None? || config.dump.value == DumpConfig(None, None))
      ==> r == Err(NoDumpSection)
    ensures r.Ok? ==> var d := config.dump.value;
      var job := r.value;
      job.password == d.passwordFile && job.password.Some? && !job.quiet
      && job.repoArgs == repoArgs && job.destDir == expand(destination) && job.destDir in existing
      && (job.cacheEnabled <==> d.cache.Some?)
      && job.cacheDir == (if d.cache.Some? then expand(d.cache.value) else job.destDir)
      && job.shortName == baseName(config.profiles[profile].repo) && job.env.None?
    ensures r.Err? && profile in config.profiles && config.dump.Some? && config.dump.value != DumpConfig(None, None)
      ==> r == Err(DestinationMissing(expand(destination))) || r == Err(MissingKey("passwordFile"))
    ensures profile in config.profiles && config.dump.Some? && config.dump.value != DumpConfig(None, None) ==>
      (expand(destination) !in existing ==> r == Err(DestinationMissing(expand(destination))))
      && (expand(destination) in existing && config.dump.value.passwordFile.None? ==> r == Err(MissingKey("passwordFile")))
      && (expand(destination) in existing && config.dump.value.passwordFile.Some? ==> r.Ok?)
  {
    if profile !in config.profiles then Err(ProfileNotFound(profile))
    else if config.dump.None? || config.dump.value == DumpConfig(None, None) then Err(NoDumpSection)
    else
      var d := config.dump.value;
      var destDir := expand(destination);
      if destDir !in existing then Err(DestinationMissing(destDir))
      else
        var cacheDir := if d.cache.Some? then expand(d.cache.value) else destDir;
        if d.passwordFile.None? then Err(MissingKey("passwordFile"))
        else Ok(Archive.Job(repoArgs, false, baseName(config.profiles[profile].repo), d.passwordFile,
                            d.cache.Some?, cacheDir, destDir, None))
  }

  function DumpCommand(config: LegacyConfig, destination: string, profile: string, snapshots: seq<string>,
                       repoArgs: seq<string>, expand: string -> string, existing: set<string>,
                       baseName: string -> string, w: Archive.World): Archive.Outcome
    reads config.profiles.Values
  {
    match DumpJob(config, destination, profile, repoArgs, expand, existing, baseName)
    case Err(e) => Archive.Outcome([], existing, Some(e))
    case Ok(job) => Archive.ArchiveAll(job, w, existing, if snapshots == [] then ["latest"] else snapshots)
  }

  /** `cli_dump`. */
  method CliDump(config: LegacyConfig, destination: string, profile: string, snapshots: seq<string>,
                 repoArgs: seq<string>, expand: string -> string, existing: set<string>,
                 baseName: string -> string, w: Archive.World)
    returns (out: Archive.Outcome)
    ensures out == DumpCommand(config, destination, profile, snapshots, repoArgs, expand, existing, baseName, w)
  {
    var job := DumpJob(config, destination, profile, repoArgs, expand, existing, baseName);
    if job.Err? {
      return Archive.Outcome([], existing, Some(job.error));
    }
    var names := snapshots;
    if |names| == 0 {
      names := ["latest"];
    }
    out := Archive.ArchiveSnapshots(job.value, w, existing, names);
  }

  /** Every archive `dump` writes is encrypted: its name ends in `.aes`. */
  lemma DumpAlwaysEncrypts(config: LegacyConfig, destination: string, profile: string, repoArgs: seq<string>,
                           expand: string -> string, existing: set<string>, baseName: string -> string,
                           stamp: string, shortId: string)
    requires DumpJob(config, destination, profile, repoArgs, expand, existing, baseName).Ok?
    ensures var job := DumpJob(config, destination, profile, repoArgs, expand, existing, baseName).value;
      Archive.EndsWith(Archive.ArchiveFileName(job.shortName, stamp, shortId, job.password.Some?), ".aes")
  {
  }
}

=== FILE: model.dfy ===
/** The typed configuration of spgill/backup/model.py, read by the current
    command line (spgill/backup/cli.py). Optional fields are `Option`s; the
    defaults of the dataclasses are the constants below. */
module Model {
  import opened Base

  datatype BackupLocation = BackupLocation(
    path: string,
    passwordFile: Option<string>,
    passwordCommand: Option<string>,
    env: Option<map<string, string>>,
    cleanEnv: Option<map<string, string>>)

  /** Include and exclude rules; `bareInclude` is the `include` list, whose
      entries are passed to restic without a flag. In this version the two
      files-from rules are single strings. */
  datatype BackupSourceDef = BackupSourceDef(
    bareInclude: seq<string>,
    includeFilesFrom: string,
    includeFilesFromVerbatim: string,
    exclude: seq<string>,
    iexclude: seq<string>,
    excludeIfPresent: seq<string>,
    excludeFile: seq<string>,
    iexcludeFile: seq<string>,
    excludeCaches: bool,
    excludeLargerThan: string)

  /** Every rule at its default: empty lists, empty strings, caches not excluded. */
  const DefaultSourceDef := BackupSourceDef([], "", "", [], [], [], [], [], false, "")

  datatype BackupRetention = BackupRetention(
    keepLast: Option<int>,
    keepWithin: Option<string>,
    keepHourly: Option<int>,
    keepDaily: Option<int>,
    keepWeekly: Option<int>,
    keepMonthly: Option<int>,
    keepYearly: Option<int>)

  const DefaultRetention := BackupRetention(None, None, None, None, None, None, None)

  /** The `location` of a policy: one location name or a list of them. */
  datatype LocationSpec = One(name: string) | Several(names: seq<string>)

  datatype BackupPolicy = BackupPolicy(
    location: Option<LocationSpec>,
    schedule: Option<string>,
    retention: Option<BackupRetention>)

  /** A profile is a rule set (`source`, the inherited fields) plus its own
      fields; `groups` keeps the dictionary's key order. */
  datatype BackupProfile = BackupProfile(
    source: BackupSourceDef,
    policy: Option<string>,
    hostname: Option<string>,
    archiveName: Option<string>,
    tags: Option<seq<string>>,
    groups: Option<seq<(string, BackupSourceDef)>>,
    args: Option<seq<string>>)

  /** A profile whose every field is at its default. */
  const DefaultProfile := BackupProfile(DefaultSourceDef, None, None, None, None, None, None)

  datatype ArchiveConfiguration = ArchiveConfiguration(cache: string, passwordFile: string)

  /** The whole configuration file. `profiles` keeps the file's order, which is
      the order the daemon visits them in. */
  datatype RootBackupConfiguration = RootBackupConfiguration(
    locations: map<string, BackupLocation>,
    policies: map<string, BackupPolicy>,
    profiles: seq<(string, BackupProfile)>,
    globalProfile: Option<BackupProfile>,
    archive: Option<ArchiveConfiguration>,
    cache: Option<string>,
    v: Option<int>)
}

=== FILE: timestamp.dfy ===
/** Truncation of sub-second precision in snapshot timestamps
    (`fixTimestamp` in spgill/backup/helper.py). The tool rewrites every match
    of the regular expression `:(\d+)\.(\d+)` to `:` + group 1 + `.` + the
    first six characters of group 2, scanning left to right as `re.sub` does. */
module Timestamp {
  import opened Base

  predicate IsDigit(c: char) {
    '0' <= c <= '9'
  }

  predicate AllDigits(s: string) {
    forall i :: 0 <= i < |s| ==> IsDigit(s[i])
  }

  /** The longest prefix of `s` made of digits (what a greedy `\d+` takes). */
  function DigitRun(s: string): (d: string)
    ensures d <= s && AllDigits(d)
    ensures |d| < |s| ==> !IsDigit(s[|d|])
  {
    if s != [] && IsDigit(s[0]) then [s[0]] + DigitRun(s[1..]) else []
  }

  lemma DigitRunOfDigits(d: string, s: string)
    requires AllDigits(d)
    requires s == [] || !IsDigit(s[0])
    ensures DigitRun(d + s) == d
  {
    if d != [] {
      assert (d + s)[1..] == d[1..] + s;
      DigitRunOfDigits(d[1..], s);
    } else {
      assert d + s == s;
    }
  }

  /** Length of the match of `:(\d+)\.(\d+)` at the start of `t`, with its two
      groups, or `None` when the pattern does not match there. */
  datatype Match = Match(whole: nat, seconds: string, fraction: string)

  function MatchAt(t: string): (m: Option<Match>)
    ensures m.Some? ==> m.value.whole == 2 + |m.value.seconds| + |m.value.fraction| <= |t|
    ensures m.Some? ==> t[..m.value.whole] == ":" + m.value.seconds + "." + m.value.fraction
    ensures m.Some? ==> m.value.seconds != [] && m.value.fraction != []
    ensures m.Some? ==> AllDigits(m.value.seconds) && AllDigits(m.value.fraction)
    ensures m.Some? && m.value.whole < |t| ==> !IsDigit(t[m.value.whole])
  {
    if t != [] && t[0] == ':' then
      var d1 := DigitRun(t[1..]);
      if d1 != [] && 1 + |d1| < |t| && t[1 + |d1|] == '.' then
        var d2 := DigitRun(t[2 + |d1|..]);
        if d2 != [] then
          assert t[..2 + |d1| + |d2|] == ":" + d1 + "." + d2 by {
            assert t[1..][..|d1|] == d1;
            assert t[2 + |d1|..][..|d2|] == d2;
          }
          Some(Match(2 + |d1| + |d2|, d1, d2))
        else None
      else None
    else None
  }

  function Keep6(f: string): string {
    if |f| <= 6 then f else f[..6]
  }

  /** `fixTimestamp`: every fractional part after `:SS.` keeps at most six digits. */
  function FixTimestamp(t: string): (r: string)
    ensures |r| <= |t|
    ensures t != [] ==> r != [] && r[0] == t[0]
    decreases |t|
  {
    if t == [] then []
    else match MatchAt(t)
      case Some(m) => ":" + m.seconds + "." + Keep6(m.fraction) + FixTimestamp(t[m.whole..])
      case None => [t[0]] + FixTimestamp(t[1..])
  }

  /** Every fractional part of `t` that the pattern matches has at most six digits. */
  predicate Short(t: string)
    decreases |t|
  {
    if t == [] then true
    else match MatchAt(t)
      case Some(m) => |m.fraction| <= 6 && Short(t[m.whole..])
      case None => Short(t[1..])
  }

  /** Text without a colon passes through untouched and does not influence what follows. */
  predicate NoColon(p: string) {
    ':' !in p
  }

  lemma UnfoldNoMatch(t: string)
    requires t != [] && MatchAt(t).None?
    ensures FixTimestamp(t) == [t[0]] + FixTimestamp(t[1..])
  {
  }

  /** A character other than a colon is copied and does not influence what follows. */
  lemma PassOne(c: char, s: string)
    requires c != ':'
    ensures FixTimestamp([c] + s) == [c] + FixTimestamp(s)
  {
    var t := [c] + s;
    assert t[0] == c && t[1..] == s;
    UnfoldNoMatch(t);
  }

  lemma {:induction false} PassThrough(p: string, s: string)
    requires NoColon(p)
    ensures FixTimestamp(p + s) == p + FixTimestamp(s)
  {
    if p != [] {
      var q := p[1..];
      assert p == [p[0]] + q;
      assert p + s == [p[0]] + (q + s);
      PassOne(p[0], q + s);
      PassThrough(q, s);
    } else {
      assert p + s == s;
    }
  }

  lemma AppendCancel(a: string, b: string, c: string)
    ensures a + b == a + c <==> b == c
  {
    if a + b == a + c {
      assert (a + b)[|a|..] == b;
      assert (a + c)[|a|..] == c;
    }
  }

  /** At a match, the text is kept exactly when the fraction is short and the
      rest is kept. */
  lemma KeptAtMatch(t: string, m: Match)
    requires t != [] && MatchAt(t) == Some(m)
    ensures FixTimestamp(t) == t <==> |m.fraction| <= 6 && FixTimestamp(t[m.whole..]) == t[m.whole..]
  {
    var rest := t[m.whole..];
    var head := ":" + m.seconds + "." + Keep6(m.fraction);
    var fixed := FixTimestamp(rest);
    UnfoldMatch(t, m);
    assert FixTimestamp(t) == head + fixed;
    if |m.fraction| <= 6 {
      assert Keep6(m.fraction) == m.fraction;
      assert t == head + rest by {
        assert t == t[..m.whole] + rest;
      }
      AppendCancel(head, fixed, rest);
    } else {
      assert |Keep6(m.fraction)| == 6;
      assert |head + fixed| < |t|;
    }
  }

  /** Where nothing matches, the text is kept exactly when the rest is. */
  lemma KeptAtNoMatch(t: string)
    requires t != [] && MatchAt(t).None?
    ensures FixTimestamp(t) == t <==> FixTimestamp(t[1..]) == t[1..]
  {
    UnfoldNoMatch(t);
    assert t == [t[0]] + t[1..];
    AppendCancel([t[0]], FixTimestamp(t[1..]), t[1..]);
  }

  /** A string whose fractions are already short is returned unchanged, and
      conversely: the result equals the input exactly when no fraction is
      longer than six digits. */
  lemma {:induction false} ShortIsFixedPoint(t: string)
    ensures FixTimestamp(t) == t <==> Short(t)
    decreases |t|
  {
    if t != [] {
      if MatchAt(t).Some? {
        var m := MatchAt(t).value;
        KeptAtMatch(t, m);
        ShortIsFixedPoint(t[m.whole..]);
      } else {
        KeptAtNoMatch(t);
        ShortIsFixedPoint(t[1..]);
      }
    }
  }

  /** Whether `:` + `d1` + `rest` fails to match, where `d1` is the whole digit
      run after the colon: the run is empty, or no dot follows it, or no digit
      follows the dot. */
  predicate NoFraction(d1: string, rest: string) {
    d1 == [] || rest == [] || rest[0] != '.' || |rest| < 2 || !IsDigit(rest[1])
  }

  lemma MatchAtColon(d1: string, rest: string)
    requires AllDigits(d1)
    requires rest == [] || !IsDigit(rest[0])
    ensures MatchAt([':'] + d1 + rest).None? <==> NoFraction(d1, rest)
  {
    var v := [':'] + d1 + rest;
    assert v[1..] == d1 + rest;
    DigitRunOfDigits(d1, rest);
    if rest != [] {
      assert v[1 + |d1|] == rest[0];
      assert v[2 + |d1|..] == rest[1..];
    }
  }

  /** Truncating after a dot keeps the dot and the character after it. */
  lemma FixKeepsTwo(rest: string)
    requires rest != [] && rest[0] == '.'
    ensures var fr := FixTimestamp(rest);
      |fr| >= 1 && fr[0] == '.' && (|fr| >= 2 <==> |rest| >= 2) && (|rest| >= 2 ==> fr[1] == rest[1])
  {
    assert rest == ['.'] + rest[1..];
    PassOne('.', rest[1..]);
  }

  /** A colon, its digit run, and what follows the run. */
  lemma ColonSplit(t: string)
    requires t != [] && t[0] == ':'
    ensures var d1 := DigitRun(t[1..]);
      1 + |d1| <= |t| && t[1..] == d1 + t[1 + |d1|..]
  {
    var d1 := DigitRun(t[1..]);
    assert t[1..][..|d1|] == d1;
  }

  /** Truncating what follows a digit run that cannot start a fraction keeps
      it unable to start one. */
  lemma NoFractionKept(d1: string, rest: string)
    requires AllDigits(d1)
    requires rest == [] || !IsDigit(rest[0])
    requires NoFraction(d1, rest)
    ensures MatchAt([':'] + FixTimestamp(d1 + rest)).None?
  {
    assert NoColon(d1);
    PassThrough(d1, rest);
    var fr := FixTimestamp(rest);
    assert [':'] + FixTimestamp(d1 + rest) == [':'] + d1 + fr;
    if rest != [] && rest[0] == '.' {
      FixKeepsTwo(rest);
    }
    assert NoFraction(d1, fr);
    MatchAtColon(d1, fr);
  }

  /** Where the pattern does not match at a colon, it does not match there after
      the rest has been truncated either. */
  lemma NoMatchKept(t: string)
    requires t != [] && MatchAt(t).None?
    ensures MatchAt([t[0]] + FixTimestamp(t[1..])).None?
  {
    if t[0] == ':' {
      var d1 := DigitRun(t[1..]);
      var rest := t[1 + |d1|..];
      ColonSplit(t);
      assert t == [':'] + d1 + rest;
      MatchAtColon(d1, rest);
      NoFractionKept(d1, rest);
    }
  }

  lemma UnfoldMatch(t: string, m: Match)
    requires t != [] && MatchAt(t) == Some(m)
    ensures FixTimestamp(t) == ":" + m.seconds + "." + Keep6(m.fraction) + FixTimestamp(t[m.whole..])
  {
  }

  /** `MatchAt` succeeds once its two digit runs and the dot between them are known. */
  lemma MatchFromParts(t: string, d1: string, d2: string)
    requires |t| > 1 + |d1| && t[0] == ':' && t[1 + |d1|] == '.'
    requires d1 != [] && DigitRun(t[1..]) == d1
    requires d2 != [] && DigitRun(t[2 + |d1|..]) == d2
    ensures MatchAt(t) == Some(Match(2 + |d1| + |d2|, d1, d2))
  {
  }

  /** A rewritten fraction is matched again, with the same groups, by a second pass. */
  lemma MatchAgain(sec: string, k: string, fr: string)
    requires sec != [] && k != [] && AllDigits(sec) && AllDigits(k)
    requires fr == [] || !IsDigit(fr[0])
    ensures MatchAt(":" + sec + "." + k + fr) == Some(Match(2 + |sec| + |k|, sec, k))
    ensures (":" + sec + "." + k + fr)[2 + |sec| + |k|..] == fr
  {
    var u := ":" + sec + "." + k + fr;
    var rest := "." + k + fr;
    assert u == ":" + (sec + rest);
    assert u[1..] == sec + rest;
    DigitRunOfDigits(sec, rest);
    assert u[2 + |sec|..] == k + fr;
    DigitRunOfDigits(k, fr);
    MatchFromParts(u, sec, k);
  }

  /** A rewritten match is rewritten again to the same text. */
  lemma FixAfterMatch(sec: string, k: string, fr: string)
    requires sec != [] && k != [] && AllDigits(sec) && AllDigits(k) && |k| <= 6
    requires fr == [] || !IsDigit(fr[0])
    ensures FixTimestamp(":" + sec + "." + k + fr) == ":" + sec + "." + k + FixTimestamp(fr)
  {
    var u := ":" + sec + "." + k + fr;
    var m := Match(2 + |sec| + |k|, sec, k);
    MatchAgain(sec, k, fr);
    UnfoldMatch(u, m);
    assert Keep6(k) == k;
    assert u[m.whole..] == fr;
  }

  /** Fixing twice, unrolled at a match. */
  lemma FixTwiceMatch(t: string, m: Match)
    requires t != [] && MatchAt(t) == Some(m)
    ensures FixTimestamp(FixTimestamp(t))
         == ":" + m.seconds + "." + Keep6(m.fraction) + FixTimestamp(FixTimestamp(t[m.whole..]))
  {
    var fr := FixTimestamp(t[m.whole..]);
    UnfoldMatch(t, m);
    FixAfterMatch(m.seconds, Keep6(m.fraction), fr);
  }

  /** Fixing twice, unrolled where nothing matches. */
  lemma FixTwiceNoMatch(t: string)
    requires t != [] && MatchAt(t).None?
    ensures FixTimestamp(FixTimestamp(t)) == [t[0]] + FixTimestamp(FixTimestamp(t[1..]))
  {
    NoMatchKept(t);
    UnfoldNoMatch(t);
    var u := [t[0]] + FixTimestamp(t[1..]);
    UnfoldNoMatch(u);
    assert u[1..] == FixTimestamp(t[1..]);
  }

  /** `fixTimestamp` is idempotent. */
  lemma {:induction false} Idempotent(t: string)
    ensures FixTimestamp(FixTimestamp(t)) == FixTimestamp(t)
    decreases |t|
  {
    if t != [] {
      if MatchAt(t).Some? {
        var m := MatchAt(t).value;
        FixTwiceMatch(t, m);
        Idempotent(t[m.whole..]);
        UnfoldMatch(t, m);
      } else {
        FixTwiceNoMatch(t);
        Idempotent(t[1..]);
        UnfoldNoMatch(t);
      }
    }
  }

  /** Every fraction left in the result has at most six digits. */
  lemma ResultIsShort(t: string)
    ensures Short(FixTimestamp(t))
  {
    Idempotent(t);
    ShortIsFixedPoint(FixTimestamp(t));
  }
}
